=== FILE: README.md ===
# ytmp3 core, modelled in Dafny

ytmp3 is a small Flask service. It takes a YouTube URL, has the media engine
download the audio and convert it to MP3, and hands the result to the
client. A playlist is zipped into one archive. The service does this either
in one request (`/fetch`) or as a background job with a live progress stream
(`/progress`) followed by a one-shot download (`/download/<token>`).

This project models the decision logic of `app.py`:

- the file-name sanitiser (`Sanitize`);
- the URL filter (`Urls`);
- the request prologue shared by `/progress` and `/fetch` (`Validation`);
- the choice of the output file or archive members from the job
  directory's listing (`Resolve`);
- the in-memory job registry with its take-once semantics, the cleanup
  timer and the download route (`Jobs`);
- the progress hook's event mapping and the generator's drain loop, as a
  state machine of the worker and the consumer (`Stream`);
- the routes that tie these together (`Endpoints`).

`Base` holds `Option`, `Result`, the reply type and Python truthiness.
`Text` holds whitespace, ASCII lower-casing and substring search.

Several things are inputs rather than effects:

- The media engine is an input. It either returns its description of the
  media (title, id, entries) and the names of the files it wrote, or it
  raises with a message.
- The directory listing is a `seq<string>`. A path exists exactly when its
  name is in the listing.
- The clock value and the job token are parameters. Tokens are assumed
  fresh, as `uuid4` makes them.
- Thread interleavings are a schedule: a sequence of booleans saying whether
  the worker or the consumer moves next.

## Model

| member | source | states |
|---|---|---|
| Sanitize.SanitizeFilename | app.py:60-67 | The result is never empty. It has no `\ / : * ? " < > \|`, no leading or trailing whitespace, and only single `' '` blanks. It is at most `max_length` long unless it is `untitled`. It is `untitled` whenever nothing but unsafe characters and whitespace remain, or when the cap is 0. Otherwise it is the whitespace-normalised text cut at the cap: a prefix within the cap, followed in that text only by whitespace up to the cap. When the text fits, it is the whole text and keeps exactly its words. |
| Sanitize.CutIsTrimmedPrefix | app.py:65-66 | A prefix within the cap that does not end in whitespace and is followed only by whitespace up to the cap is exactly `name[:max_length].rstrip()`, so the cut is unique. |
| Sanitize.Normalize | app.py:64 | Collapsing whitespace runs and stripping keeps exactly the words of the text, joined by single blanks, and never introduces an unsafe character. |
| Sanitize.DeleteUnsafe | app.py:63 | Deleting the unsafe characters leaves none of them and never lengthens the name. |
| Sanitize.DeleteUnsafeKeepsSafe | app.py:63 | A name without unsafe characters is left unchanged. |
| Sanitize.DeleteUnsafeOnlyUnsafe | app.py:63 | A name made only of unsafe characters disappears entirely. |
| Sanitize.DeleteUnsafeSplices | app.py:63 | Deleting an unsafe character joins the text on its two sides directly, with no blank in between. |
| Sanitize.DeleteUnsafeAppend | app.py:63 | Deletion distributes over concatenation, so an unsafe character joins its neighbours without leaving a gap. |
| Sanitize.Collapse | app.py:64 | The collapse of a text is empty exactly when the text is, and starts with a blank exactly when the text starts with whitespace. |
| Sanitize.CollapseLast | app.py:64 | The collapse of a non-empty text ends in a blank exactly when the text ends in whitespace. |
| Sanitize.CollapseClean | app.py:64 | Replacing whitespace runs by one blank leaves only single plain blanks and brings in no unsafe character. |
| Sanitize.TrimLeft | app.py:64 | The left strip is a suffix of the text that does not start with whitespace. |
| Sanitize.TrimRight | app.py:64-66 | The right strip is a prefix of the text that does not end with whitespace. |
| Sanitize.TrimLeftRemovesSpaces | app.py:64 | `strip()` removes only whitespace at the front. |
| Sanitize.TrimRightRemovesSpaces | app.py:64-66 | `strip()` and `rstrip()` remove only whitespace at the end. |
| Sanitize.SanitizeCleanName | app.py:60-67 | A clean name within the cap sanitises to itself. |
| Sanitize.SanitizeIdempotent | app.py:60-67 | With a cap of at least 8, sanitising twice equals sanitising once. |
| Sanitize.SanitizeExampleTitle | app.py:63-64 | `  My:/Song*?  ` becomes `MySong`: unsafe characters are deleted, not replaced by a blank. |
| Sanitize.SanitizeExampleDeletes | app.py:63 | `AC/DC` becomes `ACDC`. |
| Sanitize.SanitizeExampleEmpty | app.py:61-62 | The empty name becomes `untitled`. |
| Text.Lower | app.py:56 | Lower-casing keeps the length and works character by character. ASCII `A`–`Z` become `a`–`z`, every other character is kept, and no ASCII upper-case letter remains. |
| Text.ContainsIffOccurs | app.py:57 | Python's `p in s` holds exactly when `p` occurs at some position of `s`. |
| Urls.IsYoutubeUrlIff | app.py:53-57 | A URL is accepted exactly when it is present and non-empty and one of `youtube.com/watch`, `youtube.com/playlist`, `youtu.be/` occurs somewhere in its lower-cased text. |
| Urls.NoUrlRefused | app.py:54-55 | A missing or empty URL is refused. |
| Urls.IsYoutubeUrlIgnoresCase | app.py:56 | Case does not matter. |
| Urls.IsYoutubeUrlAnywhere | app.py:57 | Surrounding text never turns an accepted URL into a refused one, so the host is not checked. |
| Urls.ForeignHostAccepted | app.py:57 | An example of the missing host check: `https://example.org/?next=youtu.be/x`, on another host, passes because a fragment appears in its query. |
| Validation.CheckRequest | app.py:273-286 | The request goes on exactly when a URL is given, the key check passes and the URL is accepted. Otherwise the first failing check answers, in this order: 400 `missing url parameter`; 403 `missing X-API-Key header`; 403 `invalid api key`; 400 `unsupported url domain`. |
| Validation.MissingUrlFirst | app.py:274-275 | A missing or empty URL is reported first, whatever the key. |
| Validation.KeyBeforeDomain | app.py:278-286 | With a key configured and a wrong or missing header, even a foreign URL gets 403. |
| Validation.HeaderIgnoredWithoutKey | app.py:278 | Without a configured key, or with an empty one, the header plays no part. |
| Endpoints.EndpointsRefuseAlike | app.py:479-491 | `/fetch` refuses exactly as `/progress` does. |
| Endpoints.ProgressReply | app.py:273-286 | The stream starts exactly when the prologue passes; a refusal is a 400 or 403. |
| Resolve.ResolveSingle | app.py:369-379 | `title.mp3` is chosen when listed. It is an error with the message `expected mp3 file not found after download` exactly when neither it nor any `.mp3` file is listed. Any other choice is a listed `.mp3` file. |
| Resolve.ResolveSingleOnly | app.py:373-374 | With no exact name and exactly one `.mp3` file, that file is chosen. |
| Resolve.ResolveSingleFallback | app.py:375-377 | With no exact name and several `.mp3` files, the first listed `.mp3` file containing the title is chosen, else the first listed `.mp3` file. |
| Resolve.Mp3Files | app.py:372 | The `.mp3` files, compared case-insensitively, are exactly the listed names ending in `.mp3`. |
| Resolve.Mp3FilesCounts | app.py:372 | Each `.mp3` name occurs among the `.mp3` files as often as it is listed, and every other name not at all. |
| Resolve.EntryMember | app.py:356-365 | For an entry whose `title.mp3` is listed, the member is that file under that name. Otherwise it is the first listed `.mp3` file whose name contains the entry's non-empty id or its sanitised title, under its own name. With no such file there is no member. |
| Resolve.ScanForEntry | app.py:361-365 | The loop over the listing stops at the first `.mp3` name matching the entry, and finds nothing exactly when there is no such name. |
| Resolve.BuildArchive | app.py:352-365 | The loop over the entries produces exactly the members the entry-by-entry definition gives. |
| Resolve.ArchiveMembersBounded | app.py:353-365 | The archive holds at most one member per non-empty entry. |
| Resolve.ArchiveSkipsNull | app.py:354-355 | An empty entry (`None` or `{}`) contributes nothing wherever it stands. |
| Resolve.ArchiveMembersAppend | app.py:353 | Members are added in entry order. |
| Resolve.ArchiveMembersFromListing | app.py:358-364 | Every member is a listed `.mp3` file, archived under its own name. |
| Resolve.SameTitleArchivedTwice | app.py:357-359 | Two entries with the same sanitised title both archive the same exact `title.mp3` when that file is listed; nothing removes the duplicate. |
| Resolve.Prepare | app.py:349-381 | An engine answer with a non-empty list of entries gives an archive named after the sanitised playlist title plus `.zip`, whose members are the entries' members in entry order, at most one per non-empty entry. Otherwise the file is the single-video choice for the sanitised title: `title.mp3` when it is listed, else a listed `.mp3` file, and the not-found error when there is none. |
| Resolve.DownloadNamesAgreeIff | app.py:381 | `/progress` and `/fetch` offer the same download name exactly when the deliverable is an archive or the file is the exact `title.mp3`. |
| Resolve.SingleNamesDiverge | app.py:369-381 | Whenever a single video's exact `title.mp3` is missing and a file is chosen anyway, `/progress` offers the chosen file's own name and `/fetch` offers `title.mp3`, and the two differ. |
| Endpoints.FetchReply | app.py:519-570 | After the prologue, an engine exception or a missing file is a 500 with its message. Otherwise the chosen file or archive is sent, under `title.mp3` or the archive's name. |
| Endpoints.RoutesNameAlikeIff | app.py:563 | For the same engine answer, the two routes' download names agree exactly when an archive was built or the exact `title.mp3` was found. |
| Endpoints.RunDownload | app.py:343-394 | The worker succeeds exactly when the engine returns and a deliverable is found. It then registers the deliverable under the token, named as `/progress` names it. Otherwise the registry is unchanged and the outcome carries the exception's message. |
| Endpoints.StreamRemoves | app.py:421-429 | When the stream ends normally, it removes the job directory exactly when the worker failed. |
| Endpoints.DirectoryOwnedOnce | app.py:383-386 | After the worker ends, exactly one party is responsible for the job directory: either the registry or the stream's failure cleanup. |
| Endpoints.ProgressThenDownload | app.py:383-471 | On success the stream ends with `done` carrying the registered name. The first download sends that name and removes the directory; a second download gets 404. On failure the stream ends with `error` carrying the exception's message, or `unknown error` when that is empty, and the token is unknown. |
| Jobs.Register | app.py:383-386 | The token maps to the job, stamped to expire 600 seconds after `now`; other tokens are untouched. |
| Jobs.Take | app.py:37 | Popping yields the job exactly when the token is registered, and removes it; other tokens are untouched. |
| Jobs.TakeAfterRegister | app.py:385 | Popping a freshly registered token gives back its job and the registry as it was. |
| Jobs.TakeTwice | app.py:452 | A second pop of a token finds nothing. |
| Jobs.Cleanup | app.py:35-43 | The timer removes the job's directory exactly when its own pop found the job. |
| Jobs.Download | app.py:449-471 | An unknown token is a 404 `invalid or expired token`. A known one sends the file under its recorded name, falling back to the file's own name, and removes the directory. |
| Jobs.DownloadIgnoresExpiry | app.py:385 | The stored expiry time never affects the download route. |
| Jobs.HandedOutAtMostOnce | app.py:34-47 | Over any interleaving of registrations, timer firings and downloads, handouts of a token plus its pending job never exceed its registrations, and are equal with one registration. So a job is served or cleaned up at most once. |
| Jobs.SecondDownloadRefused | app.py:451-455 | After a successful download, the same token gets 404. |
| Jobs.CleanupThenDownload | app.py:35-43 | A download that comes after the timer is refused; the timer removed the directory. |
| Stream.Percent | app.py:327-329 | The percent is absent exactly when neither total is a non-zero number. Otherwise percent × total = downloaded × 100, and it lies in [0, 100] when the count does not exceed the total. |
| Stream.PercentPrefersExactTotal | app.py:327 | The exact byte total wins over the estimate. |
| Stream.PercentComplete | app.py:327-329 | A finished count gives exactly 100. |
| Stream.HookEvent | app.py:323-339 | `downloading` gives a progress event with the percent, speed, eta and file name. `finished` gives the conversion notice. Any other status gives nothing. |
| Stream.HookEvents | app.py:323-339 | The hook pushes at most one event per report, and never the `worker finished` marker. |
| Stream.ReportsStreamed | app.py:323-419 | Once the stream has ended, it has yielded exactly the hook's events in order, possibly followed by the marker, and the marker never stands among the hook's events. |
| Stream.ConsumerStep | app.py:406-424 | A pass of the loop pops the oldest queued event. When the queue is empty and the worker is not finished, it yields a keep-alive. When the queue is empty and the worker is finished, it leaves the loop with one final event from the recorded outcome. |
| Stream.ConsumerStepConserves | app.py:406-424 | A pass of the loop keeps the yielded events followed by the queue unchanged, grows the output by at most one item, and yields a final event exactly when it leaves the loop. |
| Stream.FinalEvent | app.py:421-424 | The final event is `done` with the token and the registered name exactly when the download succeeded. Otherwise it is `error` carrying the message, or `unknown error` when the message is empty. |
| Stream.WorkerStep | app.py:319-398 | A worker step never touches the output, only appends to the queue (at most one event), never clears the flag, and advances one instruction; a finished program leaves the state alone. |
| Stream.WorkerProgram | app.py:343-398 | The worker pushes the hook events, records its outcome, sets the flag, and only then pushes the `worker finished` marker. |
| Stream.StreamGuarantees | app.py:396-424 | For any schedule, the yielded events are a prefix of the pushed ones, in order, without loss or repetition. No final event appears before the exit. After it, exactly one final event appears, it is last, it is `done` exactly on success, and every hook event was yielded before it. |
| Stream.MarkerCanBeLost | app.py:396-398 | A schedule exists in which the consumer exits between the flag and the marker, so the `worker finished` marker is never yielded. |
| Stream.DrainsOnceWorkerDone | app.py:406-419 | Once the worker has finished its program, the consumer exits within one more step than there are queued events. |
| Stream.WorkerRunsToEnd | app.py:343-398 | Given enough steps, the worker reaches the end of its program. |

## Left out

- Flask itself is not modelled: routing, `Response`, `stream_with_context`, `send_file`, `after_this_request`, JSON and SSE text formatting (app.py:288-290), and the HTML page. A reply is reduced to its status and message, its file and download name, or "event stream".
- The media engine and FFmpeg are foreign code. What they return is an input.
- The filesystem (`mkdtemp`, `rmtree`, `exists`, `listdir`, zip writing) is not modelled. The listing is an input and the archive is its list of (source, name) members. Directory removal is reported as a value, not performed.
- `/fetch` removes its directory after the response, in `after_this_request`. That removal is not modelled.
- Real threads, locks, `threading.Timer` and `time.sleep` are not modelled. Each registry operation is one atomic step, and the worker and consumer interleave by schedule.
- The client disconnecting (`GeneratorExit`) and the generator's own exception path (app.py:431-441) are not modelled.
- Endpoints.StreamRemoves: covers only a stream that reaches its final event. When the client disconnects after the worker failed, the source returns before its `rmtree`, and no one ever removes the job directory.
- The progress hook's `try`/`except` is not modelled, because the modelled body cannot raise.
- Logging is not modelled.
- The job token's generation is not modelled. `uuid4` tokens are taken to be fresh, which is a precondition where it matters.
- `API_KEY` loading is not modelled. The configured key is a parameter.
- Stream.Percent: computed over exact reals; float rounding of `downloaded / total * 100` is not modelled. The byte totals are integers, whereas the engine may report `total_bytes_estimate` as a float.
- Text.Lower: lower-cases ASCII letters only. Python's `str.lower()` also maps non-ASCII letters, but the fragments searched for are ASCII, so a non-ASCII letter can only reach an ASCII fragment through the handful of Unicode characters whose lower case is ASCII (such as the Kelvin sign), and that case is not modelled.
- Whitespace is the whitespace set of Python's `str` (used by `\s` and `strip()`), listed by code point.
- Sanitize.SanitizeFilename: takes `max_length` as a `nat`. A negative cap slices from the end in Python and is not modelled.
- The job record keeps the directory and the base name of the file separately, instead of one path and its `dirname`.
- The `progress` events' `speed`, `eta` and file name are carried through as given and not interpreted.

## Notes on the code's behaviour

- Unsafe characters are deleted without leaving a blank, so `  My:/Song*?  ` becomes `MySong` (`Sanitize.SanitizeExampleTitle`).
- The percent is not clamped: a byte count above the total gives more than 100. `Stream.Percent` bounds it only when the count is within the total.
- Once the consumer leaves the loop, exactly one `done` or `error` event ends the stream. But the worker sets its flag before pushing its `worker finished` marker, so the marker can be lost (`Stream.MarkerCanBeLost`).
- The URL check is a plain substring test on the whole lower-cased URL, not a host check (`Urls.ForeignHostAccepted`).
- `/download/<token>` checks no API key, unlike `/progress` and `/fetch`; knowing the token is enough (`Jobs.Download` takes no key).

=== FILE: base.dfy ===
/** Small value types shared by every module of the model. */
module Base {

  /** A Python value that may be `None`. */
  datatype Option<+T> = None | Some(value: T)

  /** The outcome of a step that either produces a value or raises with a message. */
  datatype Result<+T> = Ok(value: T) | Err(message: string)

  /** What an HTTP endpoint answers, reduced to what the model distinguishes:
      a JSON error body with its status code, a file sent as an attachment
      under a download name, or the start of a server-sent event stream. */
  datatype Reply =
    | JsonError(status: int, error: string)
    | Attachment(file: string, downloadName: string)
    | EventStream

  /** Python truthiness of an optional string: `None` and `""` are both falsy. */
  predicate Truthy(s: Option<string>) {
    s.Some? && s.value != ""
  }
}

=== FILE: endpoints.dfy ===
/** The three routes that do work: `/progress` starts a download in the
    background and streams its progress, `/download/<token>` hands over the
    finished file once, and `/fetch` downloads and answers in one request.
    The media engine is an input: it either returns its description of the
    media together with the files it wrote into the job directory, or raises
    with a message. */
module Endpoints {
  import opened Base
  import Validation
  import Resolve
  import Jobs
  import Stream

  /** What one call of the media engine comes to. */
  datatype Engine =
    | Extracted(info: Resolve.Info, listing: seq<string>)
    | Raised(message: string)

  /** The answer of a guard that refused the request. */
  function Refusal(v: Validation.Verdict): Reply
    requires v.Refuse?
  {
    JsonError(v.status, v.error)
  }

  /** `/progress`: the request prologue, then the event stream. */
  function ProgressReply(url: Option<string>, apiKey: Option<string>, header: Option<string>): (r: Reply)
    ensures r == EventStream <==> Validation.CheckRequest(url, apiKey, header).Proceed?
    ensures r.JsonError? ==> r.status == 400 || r.status == 403
  {
    var v := Validation.CheckRequest(url, apiKey, header);
    if v.Refuse? then Refusal(v) else EventStream
  }

  /** `/fetch`: the request prologue, then the download; an exception from
      the engine, or a missing audio file, becomes a 500 with its message,
      and the file is sent under the sanitised title (or the archive's
      name). */
  function FetchReply(url: Option<string>, apiKey: Option<string>, header: Option<string>, engine: Engine): (r: Reply)
    ensures !Validation.CheckRequest(url, apiKey, header).Proceed? ==>
      r == Refusal(Validation.CheckRequest(url, apiKey, header))
    ensures Validation.CheckRequest(url, apiKey, header).Proceed? && engine.Raised? ==>
      r == JsonError(500, engine.message)
    ensures Validation.CheckRequest(url, apiKey, header).Proceed? && engine.Extracted? ==>
      match Resolve.Prepare(engine.info, engine.listing)
      case Ok(d) => r == Attachment(DeliverableFile(d), Resolve.FetchName(d))
      case Err(_) => r == JsonError(500, Resolve.NotFound)
    ensures r.Attachment? ==> Validation.CheckRequest(url, apiKey, header).Proceed?
  {
    var v := Validation.CheckRequest(url, apiKey, header);
    if v.Refuse? then Refusal(v)
    else match engine
      case Raised(msg) => JsonError(500, msg)
      case Extracted(info, listing) =>
        match Resolve.Prepare(info, listing)
        case Ok(d) => Attachment(DeliverableFile(d), Resolve.FetchName(d))
        case Err(msg) => JsonError(500, msg)
  }

  /** The file a deliverable is sent from: the archive, or the chosen audio
      file. The job directory holds it under its base name, so it is the name
      `/progress` offers for download. */
  function DeliverableFile(d: Resolve.Deliverable): string {
    Resolve.ProgressName(d)
  }

  /** Both routes refuse a request the same way, with the same status and
      message, for the same headers and parameters. */
  lemma EndpointsRefuseAlike(url: Option<string>, apiKey: Option<string>, header: Option<string>, engine: Engine)
    requires Validation.CheckRequest(url, apiKey, header).Refuse?
    ensures ProgressReply(url, apiKey, header) == FetchReply(url, apiKey, header, engine)
    ensures ProgressReply(url, apiKey, header).JsonError?
  {
  }

  /** The worker's outcome: the download name registered under the token, or
      the message of the exception that ended it. */
  datatype Outcome = Outcome(result: Result<string>, registry: Jobs.Registry)

  /** `run_download`: run the engine, choose the deliverable and, when there
      is one, register it under the stream's token for ten minutes. */
  function RunDownload(engine: Engine, reg: Jobs.Registry, token: string, dir: string, now: int): (o: Outcome)
    ensures o.result.Ok? <==> engine.Extracted? && Resolve.Prepare(engine.info, engine.listing).Ok?
    ensures o.result.Ok? ==>
      var d := Resolve.Prepare(engine.info, engine.listing).value;
      && o.result.value == Resolve.ProgressName(d)
      && o.registry == Jobs.Register(reg, token, dir, DeliverableFile(d), o.result.value, now)
    ensures o.result.Err? ==> o.registry == reg
    ensures engine.Raised? ==> o.result == Err(engine.message)
    ensures engine.Extracted? && o.result.Err? ==> o.result == Err(Resolve.NotFound)
  {
    match engine
    case Raised(msg) => Outcome(Err(msg), reg)
    case Extracted(info, listing) =>
      match Resolve.Prepare(info, listing)
      case Err(msg) => Outcome(Err(msg), reg)
      case Ok(d) =>
        var name := Resolve.ProgressName(d);
        Outcome(Ok(name), Jobs.Register(reg, token, dir, DeliverableFile(d), name, now))
  }

  /** The directory the stream removes when it ends: the job directory on
      failure, nothing on success (the registry then owns it). */
  function StreamRemoves(result: Result<string>, dir: string): (r: Option<string>)
    ensures r.Some? <==> result.Err?
    ensures r.Some? ==> r.value == dir
  {
    if result.Ok? then None else Some(dir)
  }

  /** The job directory is never owned twice: after the worker ends, exactly
      one of the registry (which hands it to the download route or to the
      cleanup timer) and the stream's own cleanup is responsible for it. */
  lemma DirectoryOwnedOnce(engine: Engine, reg: Jobs.Registry, token: string, dir: string, now: int)
    requires token !in reg
    ensures var o := RunDownload(engine, reg, token, dir, now);
      (token in o.registry && o.registry[token].dir == dir) <==> StreamRemoves(o.result, dir).None?
  {
  }

  /** End to end: when the download succeeds, the stream's final event is
      `done` with the token and the registered name; the first download with
      that token sends the file under that name and removes the directory;
      a second one is a 404. When it fails, the final event is `error` with
      the exception's message, or `unknown error` when that is empty, and the
      token is unknown to the download route. */
  lemma ProgressThenDownload(engine: Engine, reg: Jobs.Registry, token: string, dir: string, now: int,
                             hooks: seq<Stream.Event>, schedule: seq<bool>)
    requires token !in reg
    ensures var o := RunDownload(engine, reg, token, dir, now);
      var s := Stream.Run(Stream.Init(hooks, o.result, token), schedule);
      && (s.exited ==> |s.out| > 0 && s.out[|s.out| - 1] == Stream.FinalEvent(o.result, token))
      && (o.result.Ok? && s.exited ==> s.out[|s.out| - 1] == Stream.Done(token, o.result.value))
      && (o.result.Err? && s.exited ==>
            s.out[|s.out| - 1] == Stream.Failed(if o.result.message != "" then o.result.message else "unknown error"))
      && (o.result.Ok? ==>
            var first := Jobs.Download(o.registry, token);
            && first.reply.Some? && first.reply.value.Attachment?
            && first.reply.value.downloadName == o.result.value
            && first.removed == Some(dir)
            && Jobs.Download(first.reg, token).reply == Some(JsonError(404, Jobs.InvalidToken)))
      && (o.result.Err? ==> Jobs.Download(o.registry, token).reply == Some(JsonError(404, Jobs.InvalidToken)))
  {
    var o := RunDownload(engine, reg, token, dir, now);
    Stream.StreamGuarantees(hooks, o.result, token, schedule);
  }

  /** For a single video the two routes agree on the download name exactly
      when the audio file was found under its exact `title.mp3`; for a
      playlist they always agree. */
  lemma RoutesNameAlikeIff(info: Resolve.Info, listing: seq<string>, reg: Jobs.Registry, token: string, dir: string, now: int,
                           url: Option<string>, apiKey: Option<string>, header: Option<string>)
    requires Validation.CheckRequest(url, apiKey, header).Proceed?
    requires Resolve.Prepare(info, listing).Ok?
    ensures var d := Resolve.Prepare(info, listing).value;
      var viaProgress := RunDownload(Extracted(info, listing), reg, token, dir, now).result.value;
      var viaFetch := FetchReply(url, apiKey, header, Extracted(info, listing)).downloadName;
      viaProgress == viaFetch <==> d.Archive? || d.file == d.title + Resolve.Mp3
  {
    Resolve.DownloadNamesAgreeIff(Resolve.Prepare(info, listing).value);
  }
}

=== FILE: jobs.dfy ===
/** The in-memory job registry: a map from token to finished job, filled by
    the progress worker, emptied either by the one-shot download route or by
    the cleanup timer, whichever pops the token first. Taking a job out of the
    map is the only way either party gets at it, so each job is handed out at
    most once. The lock around the map is modelled by making every operation
    one atomic step. */
module Jobs {
  import opened Base

  /** How long a job may wait for its download, in seconds (ten minutes). */
  const AutoCleanupSeconds: int := 10 * 60

  const InvalidToken: string := "invalid or expired token"

  /** A finished job: the directory holding it, the file to send (its base
      name), the name the client should save it under, and the time after
      which the registry considers it stale. */
  datatype Job = Job(dir: string, file: string, filename: string, expiresAt: int)

  type Registry = map<string, Job>

  /** Registering a finished job under its token, stamped to expire
      `AutoCleanupSeconds` after `now`. */
  function Register(reg: Registry, token: string, dir: string, file: string, name: string, now: int): (r: Registry)
    ensures token in r && r[token] == Job(dir, file, name, now + AutoCleanupSeconds)
    ensures forall t :: t != token ==> (t in r <==> t in reg)
    ensures forall t :: t in reg && t != token ==> r[t] == reg[t]
  {
    reg[token := Job(dir, file, name, now + AutoCleanupSeconds)]
  }

  /** The outcome of popping a token: the job, if there was one, and the
      registry without it. */
  datatype Taken = Taken(job: Option<Job>, rest: Registry)

  /** `JOBS.pop(token, None)`. */
  function Take(reg: Registry, token: string): (r: Taken)
    ensures r.job.Some? <==> token in reg
    ensures token in reg ==> r.job.value == reg[token]
    ensures token !in r.rest
    ensures forall t :: t != token ==> (t in r.rest <==> t in reg)
    ensures forall t :: t in reg && t != token ==> r.rest[t] == reg[t]
  {
    if token in reg then Taken(Some(reg[token]), reg - {token})
    else Taken(None, reg)
  }

  /** Taking what was just registered under a fresh token gives back that
      job and the registry as it was before. */
  lemma TakeAfterRegister(reg: Registry, token: string, dir: string, file: string, name: string, now: int)
    requires token !in reg
    ensures Take(Register(reg, token, dir, file, name, now), token)
         == Taken(Some(Job(dir, file, name, now + AutoCleanupSeconds)), reg)
  {
    var r := Register(reg, token, dir, file, name, now);
    assert r - {token} == reg;
  }

  /** A token popped once is gone: a second pop finds nothing and changes
      nothing. */
  lemma TakeTwice(reg: Registry, token: string)
    ensures var once := Take(reg, token);
      Take(once.rest, token) == Taken(None, once.rest)
  {
  }

  /** What one step of the registry's users does: the registry afterwards,
      the reply when a client asked, and the directory removed, if any. */
  datatype Effect = Effect(reg: Registry, reply: Option<Reply>, removed: Option<string>)

  /** The cleanup timer: pop the token and remove the job's directory when
      the pop found a job; otherwise do nothing. */
  function Cleanup(reg: Registry, token: string): (e: Effect)
    ensures e.reply.None?
    ensures e.removed.Some? <==> token in reg
    ensures token in reg ==> e.removed.value == reg[token].dir
    ensures e.reg == Take(reg, token).rest
  {
    var taken := Take(reg, token);
    match taken.job
    case Some(job) => Effect(taken.rest, None, Some(job.dir))
    case None => Effect(taken.rest, None, None)
  }

  /** The one-shot download route: pop the token; an unknown token is a 404,
      a known one sends the job's file under its recorded name (falling back
      to the file's own name) and removes the job's directory afterwards. */
  function Download(reg: Registry, token: string): (e: Effect)
    ensures token !in reg ==>
      e == Effect(reg, Some(JsonError(404, InvalidToken)), None)
    ensures token in reg ==>
      && e.reply == Some(Attachment(reg[token].file,
                                    if reg[token].filename != "" then reg[token].filename else reg[token].file))
      && e.removed == Some(reg[token].dir)
    ensures e.reg == Take(reg, token).rest
  {
    var taken := Take(reg, token);
    match taken.job
    case None => Effect(taken.rest, Some(JsonError(404, InvalidToken)), None)
    case Some(job) =>
      var name := if job.filename != "" then job.filename else job.file;
      Effect(taken.rest, Some(Attachment(job.file, name)), Some(job.dir))
  }

  /** The expiry time stored with a job plays no part in serving it: the
      route checks only that the token is present. */
  lemma DownloadIgnoresExpiry(reg: Registry, token: string, job: Job, later: int)
    ensures Download(reg[token := job], token).reply
         == Download(reg[token := job.(expiresAt := later)], token).reply
  {
  }

  // ---------------------------------------------------------------------
  // Interleavings of registering, cleanup and download
  // ---------------------------------------------------------------------

  /** One atomic use of the registry. */
  datatype Action =
    | Put(token: string, job: Job)
    | TimerFires(token: string)
    | DownloadRequest(token: string)

  function Apply(reg: Registry, a: Action): Effect {
    match a
    case Put(t, job) => Effect(reg[t := job], None, None)
    case TimerFires(t) => Cleanup(reg, t)
    case DownloadRequest(t) => Download(reg, t)
  }

  /** The registry after a sequence of actions. */
  function Final(reg: Registry, acts: seq<Action>): Registry
    decreases |acts|
  {
    if acts == [] then reg
    else Apply(Final(reg, acts[..|acts| - 1]), acts[|acts| - 1]).reg
  }

  /** Whether an action pops `t` from a registry that holds it, that is,
      hands the job to a client or to the cleanup timer. */
  predicate TakesJob(reg: Registry, a: Action, t: string) {
    !a.Put? && a.token == t && t in reg
  }

  /** How many of the actions handed out the job under `t`. */
  function Handouts(reg: Registry, acts: seq<Action>, t: string): nat
    decreases |acts|
  {
    if acts == [] then 0
    else
      var before := acts[..|acts| - 1];
      Handouts(reg, before, t) + (if TakesJob(Final(reg, before), acts[|acts| - 1], t) then 1 else 0)
  }

  /** How many of the actions register `t`. */
  function Puts(acts: seq<Action>, t: string): nat
    decreases |acts|
  {
    if acts == [] then 0
    else Puts(acts[..|acts| - 1], t) + (if acts[|acts| - 1].Put? && acts[|acts| - 1].token == t then 1 else 0)
  }

  /** Every handout of `t` is paid for by a registration of `t`: the handouts
      plus the job still waiting never exceed the registrations, and with a
      single registration they are equal. So with one registration the job
      is served or cleaned up at most once, and exactly once when the token
      is gone at the end. */
  lemma {:induction false} HandedOutAtMostOnce(reg: Registry, acts: seq<Action>, t: string)
    requires t !in reg
    ensures Handouts(reg, acts, t) + (if t in Final(reg, acts) then 1 else 0) <= Puts(acts, t)
    ensures Puts(acts, t) <= 1 ==>
      Handouts(reg, acts, t) + (if t in Final(reg, acts) then 1 else 0) == Puts(acts, t)
    decreases |acts|
  {
    if acts != [] {
      var before := acts[..|acts| - 1];
      var a := acts[|acts| - 1];
      HandedOutAtMostOnce(reg, before, t);
      var mid := Final(reg, before);
      match a
      case Put(u, job) =>
        assert Final(reg, acts) == mid[u := job];
      case TimerFires(u) =>
        assert Final(reg, acts) == Take(mid, u).rest;
      case DownloadRequest(u) =>
        assert Final(reg, acts) == Take(mid, u).rest;
    }
  }

  /** With one registration, a download that finds the job means every later
      download of that token is a 404. */
  lemma SecondDownloadRefused(reg: Registry, t: string, job: Job)
    ensures var first := Download(reg[t := job], t);
      && first.reply.value.Attachment?
      && Download(first.reg, t).reply == Some(JsonError(404, InvalidToken))
  {
  }

  /** A download that loses the race to the cleanup timer is refused, and the
      directory is removed exactly once, by the timer. */
  lemma CleanupThenDownload(reg: Registry, t: string, job: Job)
    ensures var cleaned := Cleanup(reg[t := job], t);
      && cleaned.removed == Some(job.dir)
      && Download(cleaned.reg, t) == Effect(cleaned.reg, Some(JsonError(404, InvalidToken)), None)
  {
  }
}

=== FILE: resolve.dfy ===
/** Choosing the deliverable once the media engine has written its files.
    The directory listing is an input; a path exists exactly when its name is
    in the listing. The same code appears in `run_download` and in `fetch`. */
module Resolve {
  import opened Base
  import opened Text
  import Sanitize

  const Mp3: string := ".mp3"
  const Zip: string := ".zip"
  const NotFound: string := "expected mp3 file not found after download"

  /** One playlist entry as the engine reports it; an absent field is "". */
  datatype Entry = Entry(title: string, id: string)

  /** What the engine returns: a title, an id and, for a playlist, its entries.
      An entry Python treats as false (`None` or an empty dictionary) is
      `None`. An absent title or id is "". */
  datatype Info = Info(title: string, id: string, entries: Option<seq<Option<Entry>>>)

  /** One file put into the archive, with the name it gets inside it. */
  datatype Member = Member(source: string, arcname: string)

  /** The file handed to the client: one audio file, or an archive. */
  datatype Deliverable =
    | Single(file: string, title: string)
    | Archive(name: string, members: seq<Member>)

  /** Python's `a or b` on strings. */
  function Or(a: string, b: string): string {
    if a != "" then a else b
  }

  /** `f.lower().endswith('.mp3')`. */
  predicate IsMp3Name(f: string) {
    EndsWith(Lower(f), Mp3)
  }

  /** A name built as `title + ".mp3"` passes the `.mp3` test. */
  lemma Mp3Suffix(title: string)
    ensures IsMp3Name(title + Mp3)
  {
    var l := Lower(title + Mp3);
    assert l[|l| - 4..] == Lower(Mp3);
  }

  /** The position of the first element satisfying `p`. */
  function FirstWhere(xs: seq<string>, p: string -> bool): (r: Option<nat>)
    ensures r.Some? ==> r.value < |xs| && p(xs[r.value])
    ensures r.Some? ==> forall j :: 0 <= j < r.value ==> !p(xs[j])
    ensures r.None? ==> forall j :: 0 <= j < |xs| ==> !p(xs[j])
  {
    if xs == [] then None
    else if p(xs[0]) then Some(0)
    else match FirstWhere(xs[1..], p)
      case None => None
      case Some(k) => Some(k + 1)
  }

  /** A position where `p` holds for the first time is the one found. */
  lemma FirstWhereAt(xs: seq<string>, p: string -> bool, j: nat)
    requires j < |xs| && p(xs[j])
    requires forall k :: 0 <= k < j ==> !p(xs[k])
    ensures FirstWhere(xs, p) == Some(j)
  {
  }

  /** The test `t in f`, as a predicate on `f`. */
  function HasText(t: string): string -> bool {
    f => Contains(f, t)
  }

  /** A test restricted to `.mp3` names. */
  function Mp3And(q: string -> bool): string -> bool {
    f => IsMp3Name(f) && q(f)
  }

  /** `[f for f in listing if f.lower().endswith('.mp3')]`. */
  function Mp3Files(listing: seq<string>): (r: seq<string>)
    ensures forall f :: f in r <==> f in listing && IsMp3Name(f)
    ensures |r| <= |listing|
  {
    if listing == [] then []
    else (if IsMp3Name(listing[0]) then [listing[0]] else []) + Mp3Files(listing[1..])
  }

  /** The `.mp3` names keep each `.mp3` name of the listing as often as it is
      listed, and no other name. */
  lemma {:induction false} Mp3FilesCounts(listing: seq<string>, x: string)
    ensures multiset(Mp3Files(listing))[x] == if IsMp3Name(x) then multiset(listing)[x] else 0
    decreases |listing|
  {
    if listing != [] {
      Mp3FilesCounts(listing[1..], x);
      assert listing == [listing[0]] + listing[1..];
    }
  }

  /** Searching the `.mp3` names for a test finds the same file as searching the
      whole listing for an `.mp3` name passing the test. */
  lemma {:induction false} FirstInMp3Files(listing: seq<string>, q: string -> bool)
    ensures var a := FirstWhere(Mp3Files(listing), q);
      var b := FirstWhere(listing, Mp3And(q));
      && (a.Some? <==> b.Some?)
      && (a.Some? ==> Mp3Files(listing)[a.value] == listing[b.value])
    decreases |listing|
  {
    if listing != [] {
      var rest := listing[1..];
      FirstInMp3Files(rest, q);
      var ms := Mp3Files(listing);
      var mr := Mp3Files(rest);
      if IsMp3Name(listing[0]) {
        assert ms == [listing[0]] + mr;
        if q(listing[0]) {
          FirstHere(ms, q);
          FirstHere(listing, Mp3And(q));
        } else {
          assert ms[1..] == mr;
          FirstSkip(ms, q);
          FirstSkip(listing, Mp3And(q));
        }
      } else {
        assert ms == mr;
        FirstSkip(listing, Mp3And(q));
      }
    }
  }

  /** A search whose first element passes stops there. */
  lemma FirstHere(xs: seq<string>, p: string -> bool)
    requires xs != [] && p(xs[0])
    ensures FirstWhere(xs, p) == Some(0)
  {
  }

  /** A search whose first element fails goes on with the rest, one position
      further along. */
  lemma FirstSkip(xs: seq<string>, p: string -> bool)
    requires xs != [] && !p(xs[0])
    ensures var a := FirstWhere(xs, p);
      var b := FirstWhere(xs[1..], p);
      && (a.Some? <==> b.Some?)
      && (a.Some? ==> a.value == b.value + 1 && xs[a.value] == xs[1..][b.value])
  {
  }

  // ---------------------------------------------------------------------
  // A single video
  // ---------------------------------------------------------------------

  /** The title used for a single video's file name. */
  function SingleTitle(info: Info): string {
    Sanitize.SanitizeFilename(Or(Or(info.title, info.id), "video"), Sanitize.DefaultMaxLength)
  }

  /** The name of the file chosen for a single video: the exact name
      `title.mp3` when it exists; otherwise the only `.mp3` file; otherwise,
      among several, the first containing the title, else the first of them. */
  function ResolveSingle(title: string, listing: seq<string>): (r: Result<string>)
    ensures title + Mp3 in listing ==> r == Ok(title + Mp3)
    ensures r.Err? <==> title + Mp3 !in listing && forall f :: f in listing ==> !IsMp3Name(f)
    ensures r.Err? ==> r.message == NotFound
    ensures r.Ok? ==> r.value in listing
    ensures r.Ok? && r.value != title + Mp3 ==> IsMp3Name(r.value)
  {
    var exact := title + Mp3;
    if exact in listing then Ok(exact)
    else
      var mp3s := Mp3Files(listing);
      if |mp3s| == 1 then
        assert mp3s[0] in mp3s;
        Ok(mp3s[0])
      else if |mp3s| > 1 then
        assert mp3s[0] in mp3s;
        match FirstWhere(mp3s, HasText(title))
        case Some(k) => Ok(mp3s[k])
        case None => Ok(mp3s[0])
      else
        Err(NotFound)
  }

  /** When the exact name is missing and several `.mp3` files exist, the choice
      is the first listed `.mp3` file containing the title, or, when none does,
      the first listed `.mp3` file. */
  lemma ResolveSingleFallback(title: string, listing: seq<string>)
    requires title + Mp3 !in listing && |Mp3Files(listing)| > 1
    ensures var withTitle := FirstWhere(listing, Mp3And(HasText(title)));
      var anyMp3 := FirstWhere(listing, IsMp3Name);
      && anyMp3.Some?
      && (withTitle.Some? ==> ResolveSingle(title, listing) == Ok(listing[withTitle.value]))
      && (withTitle.None? ==> ResolveSingle(title, listing) == Ok(listing[anyMp3.value]))
  {
    FirstInMp3Files(listing, HasText(title));
    FirstMp3File(listing);
  }

  /** The head of the `.mp3` names is the first listed `.mp3` file. */
  lemma {:induction false} FirstMp3File(listing: seq<string>)
    ensures var k := FirstWhere(listing, IsMp3Name);
      && (k.Some? <==> Mp3Files(listing) != [])
      && (k.Some? ==> Mp3Files(listing)[0] == listing[k.value])
    decreases |listing|
  {
    if listing != [] {
      var rest := listing[1..];
      FirstMp3File(rest);
      var ms := Mp3Files(listing);
      var k := FirstWhere(listing, IsMp3Name);
      if IsMp3Name(listing[0]) {
        assert k == Some(0);
        assert ms == [listing[0]] + Mp3Files(rest);
      } else {
        assert ms == Mp3Files(rest);
        var k' := FirstWhere(rest, IsMp3Name);
        assert k.Some? <==> k'.Some?;
        if k'.Some? {
          assert k == Some(k'.value + 1);
          assert listing[k'.value + 1] == rest[k'.value];
        }
      }
    }
  }

  /** With exactly one `.mp3` file and no exact name, that file is chosen. */
  lemma ResolveSingleOnly(title: string, listing: seq<string>, f: string)
    requires title + Mp3 !in listing && Mp3Files(listing) == [f]
    ensures ResolveSingle(title, listing) == Ok(f)
  {
  }

  // ---------------------------------------------------------------------
  // A playlist
  // ---------------------------------------------------------------------

  /** The sanitised title of a playlist entry. */
  function EntryTitle(e: Entry): string {
    Sanitize.SanitizeFilename(Or(Or(e.title, e.id), "untitled"), Sanitize.DefaultMaxLength)
  }

  /** The fallback test for an entry's file: an `.mp3` name containing the
      entry's id (when it has one) or its sanitised title. */
  function EntryMatch(id: string, entryTitle: string): string -> bool {
    f => IsMp3Name(f) && NamesEntry(f, id, entryTitle)
  }

  /** `(entry.get('id') and entry['id'] in fname) or (entry_title in fname)`. */
  predicate NamesEntry(f: string, id: string, entryTitle: string) {
    (id != "" && Contains(f, id)) || Contains(f, entryTitle)
  }

  /** The archive member one entry contributes, if any. */
  function EntryMember(e: Entry, listing: seq<string>): (m: Option<Member>)
    ensures EntryTitle(e) + Mp3 in listing ==>
      m == Some(Member(EntryTitle(e) + Mp3, EntryTitle(e) + Mp3))
    ensures EntryTitle(e) + Mp3 !in listing ==>
      (m.None? <==> forall j :: 0 <= j < |listing| ==> !EntryMatch(e.id, EntryTitle(e))(listing[j]))
    ensures EntryTitle(e) + Mp3 !in listing && m.Some? ==>
      exists k :: 0 <= k < |listing| && m.value == Member(listing[k], listing[k])
        && EntryMatch(e.id, EntryTitle(e))(listing[k])
        && forall j :: 0 <= j < k ==> !EntryMatch(e.id, EntryTitle(e))(listing[j])
    ensures m.Some? ==> m.value.source in listing && m.value.arcname == m.value.source
    ensures m.Some? ==> IsMp3Name(m.value.source)
  {
    var exact := EntryTitle(e) + Mp3;
    Mp3Suffix(EntryTitle(e));
    if exact in listing then Some(Member(exact, exact))
    else match FirstWhere(listing, EntryMatch(e.id, EntryTitle(e)))
      case Some(k) => Some(Member(listing[k], listing[k]))
      case None => None
  }

  /** The archive's members for a list of entries, in entry order; empty entries
      and entries without a file contribute nothing. */
  function ArchiveMembers(entries: seq<Option<Entry>>, listing: seq<string>): seq<Member>
    decreases |entries|
  {
    if entries == [] then []
    else
      var prefix := ArchiveMembers(entries[..|entries| - 1], listing);
      match entries[|entries| - 1]
      case None => prefix
      case Some(e) =>
        match EntryMember(e, listing)
        case Some(m) => prefix + [m]
        case None => prefix
  }

  /** How many entries are not empty (Python-true). */
  function NonNull(entries: seq<Option<Entry>>): nat
    decreases |entries|
  {
    if entries == [] then 0
    else NonNull(entries[..|entries| - 1]) + (if entries[|entries| - 1].Some? then 1 else 0)
  }

  /** The scan `for fname in os.listdir(tempdir)` for one entry, stopping at
      the first `.mp3` name containing the entry's id or title. */
  method ScanForEntry(id: string, entryTitle: string, listing: seq<string>) returns (found: Option<string>)
    ensures found.Some? <==> FirstWhere(listing, EntryMatch(id, entryTitle)).Some?
    ensures found.Some? ==> found.value == listing[FirstWhere(listing, EntryMatch(id, entryTitle)).value]
  {
    var j := 0;
    while j < |listing|
      invariant 0 <= j <= |listing|
      invariant forall k :: 0 <= k < j ==> !(IsMp3Name(listing[k]) && NamesEntry(listing[k], id, entryTitle))
    {
      var fname := listing[j];
      if IsMp3Name(fname) {
        if NamesEntry(fname, id, entryTitle) {
          FirstMatchAt(listing, id, entryTitle, j);
          return Some(fname);
        }
      }
      j := j + 1;
    }
    NoMatch(listing, id, entryTitle);
    return None;
  }

  /** The scan's stopping point is the first match. */
  lemma FirstMatchAt(xs: seq<string>, id: string, t: string, j: nat)
    requires j < |xs| && IsMp3Name(xs[j]) && NamesEntry(xs[j], id, t)
    requires forall k :: 0 <= k < j ==> !(IsMp3Name(xs[k]) && NamesEntry(xs[k], id, t))
    ensures FirstWhere(xs, EntryMatch(id, t)) == Some(j)
  {
    FirstWhereAt(xs, EntryMatch(id, t), j);
  }

  /** A scan that finds nothing agrees with the search. */
  lemma NoMatch(xs: seq<string>, id: string, t: string)
    requires forall k :: 0 <= k < |xs| ==> !(IsMp3Name(xs[k]) && NamesEntry(xs[k], id, t))
    ensures FirstWhere(xs, EntryMatch(id, t)) == None
  {
  }

  /** `zip_path` and the files written into it, as the loop in the source does
      it: skip empty entries, take the exact name when it exists, otherwise scan
      the listing for a match. */
  method BuildArchive(entries: seq<Option<Entry>>, listing: seq<string>) returns (members: seq<Member>)
    ensures members == ArchiveMembers(entries, listing)
  {
    members := [];
    var i := 0;
    while i < |entries|
      invariant 0 <= i <= |entries|
      invariant members == ArchiveMembers(entries[..i], listing)
    {
      assert entries[..i + 1][..i] == entries[..i];
      match entries[i] {
        case None =>
        case Some(e) =>
          var entryTitle := EntryTitle(e);
          var exact := entryTitle + Mp3;
          if exact in listing {
            members := members + [Member(exact, exact)];
          } else {
            var found := ScanForEntry(e.id, entryTitle, listing);
            if found.Some? {
              members := members + [Member(found.value, found.value)];
            }
          }
      }
      i := i + 1;
    }
    assert entries[..|entries|] == entries;
  }

  /** Members are added entry by entry, so archiving two runs of entries one
      after the other gives the two archives' members one after the other. */
  lemma {:induction false} ArchiveMembersAppend(a: seq<Option<Entry>>, b: seq<Option<Entry>>, listing: seq<string>)
    ensures ArchiveMembers(a + b, listing) == ArchiveMembers(a, listing) + ArchiveMembers(b, listing)
    decreases |b|
  {
    if b == [] {
      assert a + b == a;
    } else {
      var b' := b[..|b| - 1];
      var x := b[|b| - 1];
      assert b == b' + [x];
      assert a + b == (a + b') + [x];
      ArchiveMembersAppend(a, b', listing);
      ArchiveMembersSnoc(a + b', x, listing);
      ArchiveMembersSnoc(b', x, listing);
    }
  }

  /** One more entry adds its own members after the others. */
  lemma ArchiveMembersSnoc(es: seq<Option<Entry>>, x: Option<Entry>, listing: seq<string>)
    ensures ArchiveMembers(es + [x], listing) == ArchiveMembers(es, listing) + ArchiveMembers([x], listing)
  {
    var xs := es + [x];
    assert xs[..|xs| - 1] == es && xs[|xs| - 1] == x;
    var one := [x];
    assert one[..0] == [] && one[0] == x;
  }

  /** Each non-empty entry adds at most one member. */
  lemma {:induction false} ArchiveMembersBounded(entries: seq<Option<Entry>>, listing: seq<string>)
    ensures |ArchiveMembers(entries, listing)| <= NonNull(entries)
    decreases |entries|
  {
    if entries != [] {
      var n := |entries| - 1;
      var init := entries[..n];
      ArchiveMembersBounded(init, listing);
    }
  }

  /** Every member is an `.mp3` file of the listing archived under its own name. */
  lemma {:induction false} ArchiveMembersFromListing(entries: seq<Option<Entry>>, listing: seq<string>)
    ensures forall m :: m in ArchiveMembers(entries, listing) ==>
      m.source in listing && m.arcname == m.source && IsMp3Name(m.source)
    decreases |entries|
  {
    if entries != [] {
      ArchiveMembersFromListing(entries[..|entries| - 1], listing);
    }
  }

  /** The archive's name: the sanitised playlist title, or "playlist". */
  function PlaylistTitle(info: Info): string {
    Sanitize.SanitizeFilename(Or(info.title, "playlist"), Sanitize.DefaultMaxLength)
  }

  /** Whether the engine's answer is treated as a playlist: it has a non-empty
      list of entries. */
  predicate IsPlaylist(info: Info) {
    info.entries.Some? && |info.entries.value| > 0
  }

  /** The deliverable for an engine answer and the files in the job directory. */
  function Prepare(info: Info, listing: seq<string>): (r: Result<Deliverable>)
    ensures IsPlaylist(info) ==>
      (&& r.Ok? && r.value.Archive?
       && r.value.name == PlaylistTitle(info) + Zip
       && r.value.members == ArchiveMembers(info.entries.value, listing)
       && |r.value.members| <= NonNull(info.entries.value))
    ensures !IsPlaylist(info) ==>
      (r.Err? <==> SingleTitle(info) + Mp3 !in listing && forall f :: f in listing ==> !IsMp3Name(f))
    ensures !IsPlaylist(info) && r.Ok? ==>
      && r.value.Single? && r.value.file in listing && r.value.title == SingleTitle(info)
      && Ok(r.value.file) == ResolveSingle(SingleTitle(info), listing)
    ensures !IsPlaylist(info) && SingleTitle(info) + Mp3 in listing ==>
      r == Ok(Single(SingleTitle(info) + Mp3, SingleTitle(info)))
    ensures r.Ok? && r.value.Single? && r.value.file != SingleTitle(info) + Mp3 ==>
      IsMp3Name(r.value.file)
    ensures r.Err? ==> r.message == NotFound
  {
    if IsPlaylist(info) then
      ArchiveMembersBounded(info.entries.value, listing);
      Ok(Archive(PlaylistTitle(info) + Zip, ArchiveMembers(info.entries.value, listing)))
    else
      var title := SingleTitle(info);
      match ResolveSingle(title, listing)
      case Ok(f) => Ok(Single(f, title))
      case Err(m) => Err(m)
  }

  /** The download name `/progress` registers: the archive's name, or the
      base name of the chosen audio file. */
  function ProgressName(d: Deliverable): string {
    match d
    case Archive(name, _) => name
    case Single(file, _) => file
  }

  /** The download name `/fetch` sends: the archive's name, or always the
      sanitised title followed by `.mp3`. */
  function FetchName(d: Deliverable): string {
    match d
    case Archive(name, _) => name
    case Single(_, title) => title + Mp3
  }

  /** The two endpoints name a single video's file alike exactly when the file
      chosen is the exact `title.mp3`; for an archive they always agree. */
  lemma DownloadNamesAgreeIff(d: Deliverable)
    ensures ProgressName(d) == FetchName(d) <==> d.Archive? || d.file == d.title + Mp3
  {
  }

  // ---------------------------------------------------------------------
  // Consequences
  // ---------------------------------------------------------------------

  /** The members an optional member stands for. */
  function AsList(m: Option<Member>): seq<Member> {
    if m.Some? then [m.value] else []
  }

  /** The archive of two entries, spelled out. */
  lemma ArchiveOfTwo(e1: Entry, e2: Entry, listing: seq<string>)
    ensures ArchiveMembers([Some(e1), Some(e2)], listing)
         == AsList(EntryMember(e1, listing)) + AsList(EntryMember(e2, listing))
  {
    var es := [Some(e1), Some(e2)];
    assert es[..|es| - 1] == [Some(e1)];
    assert [Some(e1)][..0] == [];
    assert ArchiveMembers([Some(e1)], listing) == AsList(EntryMember(e1, listing));
  }

  /** An empty entry changes nothing: removing it from anywhere in the list
      leaves the archive as it was. */
  lemma ArchiveSkipsNull(a: seq<Option<Entry>>, b: seq<Option<Entry>>, listing: seq<string>)
    ensures ArchiveMembers(a + [None] + b, listing) == ArchiveMembers(a + b, listing)
  {
    ArchiveMembersAppend(a + [None], b, listing);
    ArchiveMembersAppend(a, [None], listing);
    ArchiveMembersAppend(a, b, listing);
    var none: seq<Option<Entry>> := [None];
    assert none[..0] == [];
    assert ArchiveMembers(none, listing) == [];
  }

  /** Two entries with the same title both take the same exact file, so the
      archive holds that file twice. */
  lemma SameTitleArchivedTwice(e1: Entry, e2: Entry, listing: seq<string>)
    requires EntryTitle(e1) == EntryTitle(e2) && EntryTitle(e1) + Mp3 in listing
    ensures var f := EntryTitle(e1) + Mp3;
      ArchiveMembers([Some(e1), Some(e2)], listing) == [Member(f, f), Member(f, f)]
  {
    ArchiveOfTwo(e1, e2, listing);
  }

  /** For a single video whose exact `title.mp3` is missing, any file the
      fallback chooses is offered under different names by the endpoints:
      `/progress` offers the file's own name, `/fetch` offers `title.mp3`. */
  lemma SingleNamesDiverge(info: Info, listing: seq<string>)
    requires !IsPlaylist(info) && SingleTitle(info) + Mp3 !in listing
    requires Prepare(info, listing).Ok?
    ensures var d := Prepare(info, listing).value;
      && d.Single?
      && ProgressName(d) == d.file
      && FetchName(d) == SingleTitle(info) + Mp3
      && ProgressName(d) != FetchName(d)
  {
  }
}

=== FILE: sanitize.dfy ===
/** `sanitize_filename`: turns a media title into a name that is safe to use
    as a file name. Unsafe characters are deleted, every whitespace run becomes
    one blank, the ends are trimmed, the name is cut to a maximum length, and an
    empty outcome is replaced by a fixed fallback. */
module Sanitize {
  import opened Text

  /** The name used when nothing usable is left. */
  const Fallback: string := "untitled"

  /** The length cap the callers rely on (the parameter's default). */
  const DefaultMaxLength: nat := 200

  /** The characters the sanitiser deletes: `\ / : * ? " < > |`. */
  predicate IsUnsafe(c: char) {
    c == '\\' || c == '/' || c == ':' || c == '*' || c == '?'
    || c == '"' || c == '<' || c == '>' || c == '|'
  }

  predicate NoUnsafe(s: string) {
    forall i :: 0 <= i < |s| ==> !IsUnsafe(s[i])
  }

  /** Every whitespace character is a plain blank. */
  predicate BlanksOnly(s: string) {
    forall i :: 0 <= i < |s| && IsSpace(s[i]) ==> s[i] == ' '
  }

  /** No two whitespace characters are neighbours. */
  predicate NoAdjacentSpaces(s: string) {
    forall i, j :: 0 <= i < |s| && j == i + 1 && j < |s| ==> !(IsSpace(s[i]) && IsSpace(s[j]))
  }

  /** Every whitespace run is a single blank. */
  predicate SingleBlanks(s: string) {
    BlanksOnly(s) && NoAdjacentSpaces(s)
  }

  /** Any slice of a text with single blanks has single blanks. */
  lemma SingleBlanksSlice(s: string, lo: int, hi: int)
    requires SingleBlanks(s) && 0 <= lo <= hi <= |s|
    ensures SingleBlanks(s[lo..hi])
  {
    var t := s[lo..hi];
    forall i, j | 0 <= i < |t| && j == i + 1 && j < |t|
      ensures !(IsSpace(t[i]) && IsSpace(t[j]))
    {
      assert t[i] == s[lo + i] && t[j] == s[lo + j];
    }
  }

  /** No whitespace at either end. */
  predicate Trimmed(s: string) {
    s == [] || (!IsSpace(s[0]) && !IsSpace(s[|s| - 1]))
  }

  /** What every sanitised name looks like. */
  predicate IsCleanName(s: string) {
    s != [] && NoUnsafe(s) && SingleBlanks(s) && Trimmed(s)
  }

  /** All characters of `s` are whitespace. */
  predicate AllSpace(s: string) {
    forall i :: 0 <= i < |s| ==> IsSpace(s[i])
  }

  /** No character of the text is whitespace. */
  predicate NoSpace(w: string) {
    forall j :: 0 <= j < |w| ==> !IsSpace(w[j])
  }

  /** A word: a non-empty run of non-whitespace characters. */
  predicate IsWord(w: string) {
    w != [] && NoSpace(w)
  }

  /** The words of a text, in order: its maximal runs of non-whitespace. This is
      the reference reading of a name against which the sanitiser is judged. */
  function Words(s: string): (ws: seq<string>)
    ensures forall k :: 0 <= k < |ws| ==> IsWord(ws[k])
    ensures s != [] && !IsSpace(s[0]) ==> |ws| > 0 && ws[0] != [] && ws[0][0] == s[0]
    decreases |s|
  {
    if s == [] then []
    else if IsSpace(s[0]) then Words(s[1..])
    else
      var rest := Words(s[1..]);
      if |s| > 1 && !IsSpace(s[1]) then [[s[0]] + rest[0]] + rest[1..]
      else [[s[0]]] + rest
  }

  /** `re.sub(r'[\\/:*?"<>|]+', '', s)`: every unsafe character is removed. */
  function DeleteUnsafe(s: string): (r: string)
    ensures NoUnsafe(r)
    ensures |r| <= |s|
  {
    if s == [] then []
    else (if IsUnsafe(s[0]) then [] else [s[0]]) + DeleteUnsafe(s[1..])
  }

  /** Deletion distributes over concatenation, so an unsafe character joins its
      neighbours rather than leaving a gap. */
  lemma {:induction false} DeleteUnsafeAppend(a: string, b: string)
    ensures DeleteUnsafe(a + b) == DeleteUnsafe(a) + DeleteUnsafe(b)
    decreases |a|
  {
    if a != [] {
      assert (a + b)[1..] == a[1..] + b;
      DeleteUnsafeAppend(a[1..], b);
    } else {
      assert a + b == b;
    }
  }

  /** Deleting an unsafe character splices the text on its two sides together. */
  lemma DeleteUnsafeSplices(a: string, c: char, b: string)
    requires IsUnsafe(c)
    ensures DeleteUnsafe(a + [c] + b) == DeleteUnsafe(a) + DeleteUnsafe(b)
  {
    DeleteUnsafeAppend(a + [c], b);
    DeleteUnsafeAppend(a, [c]);
  }

  /** A text without unsafe characters is left as it is. */
  lemma {:induction false} DeleteUnsafeKeepsSafe(s: string)
    requires NoUnsafe(s)
    ensures DeleteUnsafe(s) == s
    decreases |s|
  {
    if s != [] {
      DeleteUnsafeKeepsSafe(s[1..]);
    }
  }

  /** Every character is unsafe. */
  predicate AllUnsafe(s: string) {
    forall i :: 0 <= i < |s| ==> IsUnsafe(s[i])
  }

  /** A text made only of unsafe characters disappears entirely. */
  lemma {:induction false} DeleteUnsafeOnlyUnsafe(s: string)
    requires AllUnsafe(s)
    ensures DeleteUnsafe(s) == []
    decreases |s|
  {
    if s != [] {
      DeleteUnsafeOnlyUnsafe(s[1..]);
    }
  }

  /** Python's `s.lstrip()`. */
  function TrimLeft(s: string): (r: string)
    ensures |r| <= |s| && r == s[|s| - |r|..]
    ensures r == [] || !IsSpace(r[0])
    decreases |s|
  {
    if s != [] && IsSpace(s[0]) then TrimLeft(s[1..]) else s
  }

  /** The collapse ends in a blank exactly when the text ends in whitespace. */
  lemma {:induction false} CollapseLast(s: string)
    requires s != []
    ensures var r := Collapse(s);
      r != [] && (IsSpace(r[|r| - 1]) <==> IsSpace(s[|s| - 1]))
    decreases |s|, 1
  {
    if IsSpace(s[0]) {
      CollapseLastAtSpace(s);
    } else {
      CollapseLastAtWord(s);
    }
  }

  /** `CollapseLast` for a text starting with whitespace. */
  lemma {:induction false} CollapseLastAtSpace(s: string)
    requires s != [] && IsSpace(s[0])
    ensures var r := Collapse(s);
      r != [] && (IsSpace(r[|r| - 1]) <==> IsSpace(s[|s| - 1]))
    decreases |s|, 0
  {
    var rest := s[1..];
    var t := TrimLeft(rest);
    var r := Collapse(s);
    CollapseSpaceHead(s);
    if t == [] {
      assert r == " ";
      if rest != [] {
        TrimmedAwayEndsInSpace(rest);
        LastOfRest(s);
      }
    } else {
      CollapseLast(t);
      var c := Collapse(t);
      assert r[|r| - 1] == c[|c| - 1];
      assert t[|t| - 1] == s[|s| - 1];
    }
  }

  /** `CollapseLast` for a text starting with a non-whitespace character. */
  lemma {:induction false} CollapseLastAtWord(s: string)
    requires s != [] && !IsSpace(s[0])
    ensures var r := Collapse(s);
      r != [] && (IsSpace(r[|r| - 1]) <==> IsSpace(s[|s| - 1]))
    decreases |s|, 0
  {
    var rest := s[1..];
    var r := Collapse(s);
    CollapseNonSpaceHead(s);
    if rest == [] {
      assert r == [s[0]];
    } else {
      CollapseLast(rest);
      var c := Collapse(rest);
      assert r[|r| - 1] == c[|c| - 1];
      LastOfRest(s);
    }
  }

  /** A non-empty text that the left strip removes entirely ends in
      whitespace. */
  lemma {:induction false} TrimmedAwayEndsInSpace(x: string)
    requires x != [] && TrimLeft(x) == []
    ensures IsSpace(x[|x| - 1])
    decreases |x|
  {
    assert IsSpace(x[0]);
    if |x| > 1 {
      TrimmedAwayEndsInSpace(x[1..]);
      LastOfRest(x);
    }
  }

  /** The last character of a text of two or more is the last of its rest. */
  lemma LastOfRest(s: string)
    requires |s| > 1
    ensures s[1..][|s| - 2] == s[|s| - 1]
  {
  }

  /** What `lstrip` removes is whitespace. */
  lemma {:induction false} TrimLeftRemovesSpaces(s: string)
    ensures forall i :: 0 <= i < |s| - |TrimLeft(s)| ==> IsSpace(s[i])
    decreases |s|
  {
    if s != [] && IsSpace(s[0]) {
      TrimLeftRemovesSpaces(s[1..]);
      assert forall i :: 1 <= i < |s| ==> s[i] == s[1..][i - 1];
    }
  }

  /** Python's `s.rstrip()`. */
  function TrimRight(s: string): (r: string)
    ensures r <= s
    ensures r == [] || !IsSpace(r[|r| - 1])
    decreases |s|
  {
    if s != [] && IsSpace(s[|s| - 1]) then TrimRight(s[..|s| - 1]) else s
  }

  /** What `rstrip` removes is whitespace. */
  lemma {:induction false} TrimRightRemovesSpaces(s: string)
    ensures forall i :: |TrimRight(s)| <= i < |s| ==> IsSpace(s[i])
    decreases |s|
  {
    if s != [] && IsSpace(s[|s| - 1]) {
      TrimRightRemovesSpaces(s[..|s| - 1]);
    }
  }

  /** `re.sub(r'\s+', ' ', s)`: each maximal whitespace run becomes one blank. */
  function Collapse(s: string): (r: string)
    ensures r == [] <==> s == []
    ensures s != [] ==> (IsSpace(r[0]) <==> IsSpace(s[0]))
    decreases |s|
  {
    if s == [] then []
    else if IsSpace(s[0]) then " " + Collapse(TrimLeft(s[1..]))
    else [s[0]] + Collapse(s[1..])
  }

  /** The collapse leaves single blanks only and brings in no unsafe
      character. */
  lemma {:induction false} CollapseClean(s: string)
    ensures SingleBlanks(Collapse(s))
    ensures NoUnsafe(s) ==> NoUnsafe(Collapse(s))
    decreases |s|
  {
    if s != [] {
      if IsSpace(s[0]) {
        var t := TrimLeft(s[1..]);
        NoUnsafeSuffix(s, t);
        CollapseClean(t);
        ConsSingleBlanks(' ', Collapse(t));
        assert Collapse(s) == [' '] + Collapse(t);
      } else {
        NoUnsafeSuffix(s, s[1..]);
        CollapseClean(s[1..]);
        ConsSingleBlanks(s[0], Collapse(s[1..]));
      }
    }
  }

  /** A suffix of a text without unsafe characters has none. */
  lemma NoUnsafeSuffix(s: string, t: string)
    requires |t| <= |s| && t == s[|s| - |t|..]
    ensures NoUnsafe(s) ==> NoUnsafe(t)
  {
    if NoUnsafe(s) {
      NoUnsafeSlice(s, |s| - |t|, |s|);
    }
  }

  /** Putting a character in front of a text with single blanks keeps single
      blanks when it is a non-space, or a blank followed by a non-space. */
  lemma ConsSingleBlanks(c: char, r: string)
    requires SingleBlanks(r)
    requires IsSpace(c) ==> c == ' ' && (r == [] || !IsSpace(r[0]))
    ensures SingleBlanks([c] + r)
    ensures !IsUnsafe(c) && NoUnsafe(r) ==> NoUnsafe([c] + r)
  {
    var t := [c] + r;
    assert forall i :: 0 < i < |t| ==> t[i] == r[i - 1];
    forall i | 0 <= i < |t| && IsSpace(t[i])
      ensures t[i] == ' '
    {
    }
    forall i, j | 0 <= i < |t| && j == i + 1 && j < |t|
      ensures !(IsSpace(t[i]) && IsSpace(t[j]))
    {
    }
  }

  /** A text without unsafe characters has none in any slice. */
  lemma NoUnsafeSlice(s: string, lo: int, hi: int)
    requires NoUnsafe(s) && 0 <= lo <= hi <= |s|
    ensures NoUnsafe(s[lo..hi])
  {
    assert forall i :: 0 <= i < hi - lo ==> s[lo..hi][i] == s[lo + i];
  }

  /** Stripping both ends keeps single blanks and the absence of unsafe characters. */
  lemma TrimmedSlices(c: string)
    requires SingleBlanks(c)
    ensures var r := TrimRight(TrimLeft(c));
      && SingleBlanks(r) && Trimmed(r)
      && (NoUnsafe(c) ==> NoUnsafe(r))
  {
    var l := TrimLeft(c);
    TrimLeftClean(c);
    TrimRightClean(l);
  }

  /** `lstrip` keeps single blanks and the absence of unsafe characters. */
  lemma TrimLeftClean(c: string)
    requires SingleBlanks(c)
    ensures SingleBlanks(TrimLeft(c))
    ensures NoUnsafe(c) ==> NoUnsafe(TrimLeft(c))
  {
    var l := TrimLeft(c);
    SingleBlanksSlice(c, |c| - |l|, |c|);
    NoUnsafeSuffix(c, l);
    assert l == c[|c| - |l|..|c|];
  }

  /** `rstrip` of a text with no leading whitespace keeps single blanks and
      the absence of unsafe characters, and leaves no whitespace at either end. */
  lemma TrimRightClean(l: string)
    requires SingleBlanks(l) && (l == [] || !IsSpace(l[0]))
    ensures SingleBlanks(TrimRight(l)) && Trimmed(TrimRight(l))
    ensures NoUnsafe(l) ==> NoUnsafe(TrimRight(l))
  {
    var r := TrimRight(l);
    assert r == l[0..|r|];
    SingleBlanksSlice(l, 0, |r|);
    if NoUnsafe(l) {
      NoUnsafeSlice(l, 0, |r|);
    }
    if r != [] {
      assert r[0] == l[0];
    }
  }

  /** `re.sub(r'\s+', ' ', s).strip()`: the name with its whitespace normalised.
      It keeps exactly the words of `s`, separated by single blanks. */
  function Normalize(s: string): (r: string)
    ensures SingleBlanks(r) && Trimmed(r)
    ensures Words(r) == Words(s)
    ensures r == [] <==> Words(s) == []
    ensures NoUnsafe(s) ==> NoUnsafe(r)
  {
    var c := Collapse(s);
    CollapseClean(s);
    var l := TrimLeft(c);
    var r := TrimRight(l);
    WordsCollapse(s);
    WordsTrimLeft(c);
    WordsTrimRight(l);
    TrimmedSlices(c);
    r
  }

  /** `sanitize_filename(name, max_length)` for a non-negative length cap. */
  function SanitizeFilename(name: string, maxLength: nat): (r: string)
    ensures IsCleanName(r)
    ensures r == Fallback || |r| <= maxLength
    ensures Words(DeleteUnsafe(name)) == [] || maxLength == 0 ==> r == Fallback
    ensures Words(DeleteUnsafe(name)) != [] && maxLength > 0 ==>
      r != [] && r <= Normalize(DeleteUnsafe(name))
    ensures name != [] && Words(DeleteUnsafe(name)) != [] && |Normalize(DeleteUnsafe(name))| <= maxLength ==>
      r == Normalize(DeleteUnsafe(name)) && Words(r) == Words(DeleteUnsafe(name))
    ensures Words(DeleteUnsafe(name)) != [] && maxLength > 0 ==>
      IsCutOf(r, Normalize(DeleteUnsafe(name)), maxLength)
  {
    if name == [] then Fallback
    else
      var d := DeleteUnsafe(name);
      var n := Normalize(d);
      var t := if |n| > maxLength then TrimRight(n[..maxLength]) else n;
      FallbackClean();
      CutClean(n, maxLength);
      if t == [] then Fallback else t
  }

  lemma FallbackClean()
    ensures IsCleanName(Fallback)
  {
    assert forall i :: 0 <= i < |Fallback| ==> !IsSpace(Fallback[i]);
  }

  /** Cutting a normalised text to a length and trimming the cut end gives a
      clean prefix within that length, empty only when the text is empty or the
      length is zero. */
  lemma CutClean(n: string, maxLength: nat)
    requires NoUnsafe(n) && SingleBlanks(n) && Trimmed(n)
    ensures var t := if |n| > maxLength then TrimRight(n[..maxLength]) else n;
      && t <= n && |t| <= maxLength
      && (t == [] <==> n == [] || maxLength == 0)
      && (t != [] ==> IsCleanName(t))
      && IsCutOf(t, n, maxLength)
  {
    if |n| > maxLength {
      var p := n[..maxLength];
      var t := TrimRight(p);
      TrimRightRemovesSpaces(p);
      assert AllSpace(n[|t|..maxLength]) by {
        forall j | 0 <= j < maxLength - |t| ensures IsSpace(n[|t|..maxLength][j]) {
          assert n[|t|..maxLength][j] == p[|t| + j];
        }
      }
      SingleBlanksSlice(n, 0, maxLength);
      NoUnsafeSlice(n, 0, maxLength);
      assert p == n[0..maxLength];
      SingleBlanksSlice(p, 0, |t|);
      NoUnsafeSlice(p, 0, |t|);
      assert t == p[0..|t|];
      if maxLength > 0 {
        assert p[0] == n[0];
        assert t != [];
        assert t[0] == p[0];
      }
    }
  }

  /** The shorter of a cap and a length. */
  function Min(a: int, b: int): int {
    if a < b then a else b
  }

  /** `r` is `n` cut to at most `cap` characters with the whitespace at the
      cut end dropped: a prefix of `n` within the cap, followed in `n` by
      nothing but whitespace up to the cap. */
  predicate IsCutOf(r: string, n: string, cap: nat) {
    && r <= n && |r| <= cap
    && AllSpace(n[|r|..Min(cap, |n|)])
  }

  /** `rstrip` drops exactly the whitespace after a text that does not end in
      whitespace. */
  lemma {:induction false} TrimRightPadded(r: string, sp: string)
    requires AllSpace(sp) && (r == [] || !IsSpace(r[|r| - 1]))
    ensures TrimRight(r + sp) == r
    decreases |sp|
  {
    if sp == [] {
      assert r + sp == r;
    } else {
      var sp' := sp[..|sp| - 1];
      assert AllSpace(sp') by {
        forall j | 0 <= j < |sp'| ensures IsSpace(sp'[j]) {
          assert sp'[j] == sp[j];
        }
      }
      TrimRightPadded(r, sp');
      var t := r + sp;
      assert IsSpace(t[|t| - 1]) by {
        assert t[|t| - 1] == sp[|sp| - 1];
      }
      assert t[..|t| - 1] == r + sp';
    }
  }

  /** A cut that does not end in whitespace is `n[:cap].rstrip()`: the cap's
      prefix with its trailing whitespace removed. So the cut is unique. */
  lemma CutIsTrimmedPrefix(r: string, n: string, cap: nat)
    requires IsCutOf(r, n, cap) && (r == [] || !IsSpace(r[|r| - 1]))
    ensures r == TrimRight(n[..Min(cap, |n|)])
  {
    var m := Min(cap, |n|);
    var p := n[..m];
    assert p == r + n[|r|..m];
    TrimRightPadded(r, n[|r|..m]);
  }

  // ---------------------------------------------------------------------
  // How whitespace handling acts on the words of a text
  // ---------------------------------------------------------------------

  /** Leading whitespace is not part of any word. */
  lemma {:induction false} WordsTrimLeft(s: string)
    ensures Words(TrimLeft(s)) == Words(s)
    decreases |s|
  {
    if s != [] && IsSpace(s[0]) {
      WordsTrimLeft(s[1..]);
    }
  }

  /** A trailing whitespace character is not part of any word. */
  lemma {:induction false} WordsSnocSpace(s: string, c: char)
    requires IsSpace(c)
    ensures Words(s + [c]) == Words(s)
    decreases |s|
  {
    if s == [] {
      assert Words([c]) == Words([]);
    } else {
      assert (s + [c])[1..] == s[1..] + [c];
      WordsSnocSpace(s[1..], c);
    }
  }

  /** Trailing whitespace is not part of any word. */
  lemma {:induction false} WordsTrimRight(s: string)
    ensures Words(TrimRight(s)) == Words(s)
    decreases |s|
  {
    if s != [] && IsSpace(s[|s| - 1]) {
      WordsTrimRight(s[..|s| - 1]);
      WordsSnocSpace(s[..|s| - 1], s[|s| - 1]);
      assert s[..|s| - 1] + [s[|s| - 1]] == s;
    }
  }

  /** Collapsing whitespace runs keeps the words. */
  lemma {:induction false} WordsCollapse(s: string)
    ensures Words(Collapse(s)) == Words(s)
    decreases |s|
  {
    if s == [] {
    } else if IsSpace(s[0]) {
      var t := TrimLeft(s[1..]);
      WordsCollapse(t);
      WordsTrimLeft(s[1..]);
      assert (" " + Collapse(t))[1..] == Collapse(t);
    } else {
      WordsCollapse(s[1..]);
      var r := Collapse(s);
      assert r[1..] == Collapse(s[1..]);
    }
  }

  // ---------------------------------------------------------------------
  // Clean names are fixed points
  // ---------------------------------------------------------------------

  lemma {:induction false} CollapseKeepsSingleBlanks(s: string)
    requires SingleBlanks(s)
    ensures Collapse(s) == s
    decreases |s|
  {
    if s != [] {
      CollapseKeepsSingleBlanks(s[1..]);
      if IsSpace(s[0]) {
        assert TrimLeft(s[1..]) == s[1..];
      }
    }
  }

  /** A clean name within the length cap sanitises to itself. */
  lemma SanitizeCleanName(s: string, maxLength: nat)
    requires IsCleanName(s) && |s| <= maxLength
    ensures SanitizeFilename(s, maxLength) == s
  {
    DeleteUnsafeKeepsSafe(s);
    CollapseKeepsSingleBlanks(s);
  }

  /** With a cap of at least the fallback's length, sanitising is idempotent. */
  lemma SanitizeIdempotent(name: string, maxLength: nat)
    requires maxLength >= |Fallback|
    ensures SanitizeFilename(SanitizeFilename(name, maxLength), maxLength)
         == SanitizeFilename(name, maxLength)
  {
    SanitizeCleanName(SanitizeFilename(name, maxLength), maxLength);
  }

  // ---------------------------------------------------------------------
  // Worked examples
  // ---------------------------------------------------------------------

  /** Whitespace in front of a word is skipped up to the word. */
  lemma {:induction false} TrimLeftBeforeWord(a: string, w: string)
    requires AllSpace(a) && w != [] && !IsSpace(w[0])
    ensures TrimLeft(a + w) == w
    decreases |a|
  {
    if a == [] {
      assert a + w == w;
    } else {
      var s := a + w;
      var a' := a[1..];
      assert s[0] == a[0] && IsSpace(s[0]);
      assert s[1..] == a' + w;
      assert TrimLeft(s) == TrimLeft(s[1..]);
      assert AllSpace(a') by {
        forall j | 0 <= j < |a'| ensures IsSpace(a'[j]) {
          assert a'[j] == a[j + 1];
        }
      }
      TrimLeftBeforeWord(a', w);
    }
  }

  /** Characters that are not whitespace pass through the collapse unchanged. */
  lemma {:induction false} CollapseWord(w: string, b: string)
    requires NoSpace(w)
    ensures Collapse(w + b) == w + Collapse(b)
    decreases |w|
  {
    if w == [] {
      assert w + b == b;
    } else {
      var s := w + b;
      var w' := w[1..];
      assert s[0] == w[0] && s[1..] == w' + b;
      assert !IsSpace(w[0]);
      assert NoSpace(w') by {
        forall j | 0 <= j < |w'| ensures !IsSpace(w'[j]) {
          assert w'[j] == w[j + 1];
        }
      }
      CollapseNonSpaceHead(s);
      CollapseWord(w', b);
      calc {
        Collapse(s);
        [w[0]] + Collapse(w' + b);
        [w[0]] + (w' + Collapse(b));
        { assert [w[0]] + w' == w; }
        w + Collapse(b);
      }
    }
  }

  /** One unfolding of the collapse at a non-space character. */
  lemma CollapseNonSpaceHead(s: string)
    requires s != [] && !IsSpace(s[0])
    ensures Collapse(s) == [s[0]] + Collapse(s[1..])
  {
  }

  /** One unfolding of the collapse at a whitespace character. */
  lemma CollapseSpaceHead(s: string)
    requires s != [] && IsSpace(s[0])
    ensures Collapse(s) == " " + Collapse(TrimLeft(s[1..]))
  {
  }

  /** A run of whitespace collapses to a single blank. */
  lemma CollapseSpaces(b: string)
    requires AllSpace(b) && b != []
    ensures Collapse(b) == " "
  {
    assert TrimLeft(b[1..]) == [];
  }

  /** What a non-empty run of whitespace around a word collapses to. */
  function Pad(a: string): string {
    if a == [] then "" else " "
  }

  /** A word followed by whitespace collapses to the word and at most one blank. */
  lemma CollapseWordSpaces(w: string, b: string)
    requires IsWord(w) && AllSpace(b)
    ensures Collapse(w + b) == w + Pad(b)
  {
    CollapseWord(w, b);
    if b != [] {
      CollapseSpaces(b);
    }
  }

  /** The collapse of a padded word: a blank per non-empty pad around the word. */
  lemma CollapsePaddedWord(a: string, w: string, b: string)
    requires AllSpace(a) && AllSpace(b) && IsWord(w)
    ensures Collapse(a + w + b) == Pad(a) + w + Pad(b)
  {
    CollapseWordSpaces(w, b);
    var wb := w + b;
    assert a + w + b == a + wb;
    if a == [] {
      assert a + wb == wb;
    } else {
      assert wb[0] == w[0];
      CollapseAfterSpaces(a, wb, w + Pad(b));
      assert Pad(a) + w + Pad(b) == " " + (w + Pad(b));
    }
  }

  /** Whitespace in front of a text starting with a word collapses to one
      blank. */
  lemma CollapseAfterSpaces(a: string, t: string, r: string)
    requires a != [] && AllSpace(a) && t != [] && !IsSpace(t[0]) && Collapse(t) == r
    ensures Collapse(a + t) == " " + r
  {
    var s := a + t;
    var a' := a[1..];
    assert s[0] == a[0] && s[1..] == a' + t;
    assert AllSpace(a') by {
      forall j | 0 <= j < |a'| ensures IsSpace(a'[j]) {
        assert a'[j] == a[j + 1];
      }
    }
    TrimLeftBeforeWord(a', t);
    CollapseSpaceHead(s);
  }

  /** `lstrip` leaves a text starting with a word alone. */
  lemma TrimLeftAtWord(s: string)
    requires s != [] && !IsSpace(s[0])
    ensures TrimLeft(s) == s
  {
  }

  /** `rstrip` of a word, with or without one trailing blank, is the word. */
  lemma TrimRightWord(w: string, post: string)
    requires IsWord(w) && (post == "" || post == " ")
    ensures TrimRight(w + post) == w
  {
    var t := w + post;
    assert !IsSpace(w[|w| - 1]);
    if post == " " {
      assert t[|t| - 1] == ' ' && t[..|t| - 1] == w;
      assert TrimRight(t) == TrimRight(w);
    } else {
      assert t == w;
    }
  }

  /** `lstrip` of a blank followed by a word removes just the blank. */
  lemma TrimLeftBlank(t: string)
    requires t != [] && !IsSpace(t[0])
    ensures TrimLeft(" " + t) == t
  {
    var s := " " + t;
    assert IsSpace(s[0]) && s[1..] == t;
  }

  /** Stripping a word with at most one blank on each side gives the word. */
  lemma StripPaddedWord(w: string, pre: string, post: string)
    requires IsWord(w) && (pre == "" || pre == " ") && (post == "" || post == " ")
    ensures TrimRight(TrimLeft(pre + w + post)) == w
  {
    var t := w + post;
    assert t[0] == w[0];
    if pre == " " {
      assert pre + w + post == " " + t;
      TrimLeftBlank(t);
    } else {
      assert pre + w + post == t;
      TrimLeftAtWord(t);
    }
    TrimRightWord(w, post);
  }

  /** Normalising a single word with whitespace around it gives the word. */
  lemma NormalizePaddedWord(a: string, w: string, b: string)
    requires AllSpace(a) && AllSpace(b) && IsWord(w)
    ensures Normalize(a + w + b) == w
  {
    CollapsePaddedWord(a, w, b);
    StripPaddedWord(w, Pad(a), Pad(b));
  }

  /** A name whose unsafe-free, whitespace-normalised form is a non-empty
      text within the cap sanitises to that text. */
  lemma SanitizeIsNormalized(name: string, maxLength: nat, n: string)
    requires name != [] && Normalize(DeleteUnsafe(name)) == n
    requires n != [] && |n| <= maxLength
    ensures SanitizeFilename(name, maxLength) == n
  {
  }

  /** Unsafe characters at the end of a text disappear. */
  lemma DropUnsafeTail(x: string, d: string, u: string)
    requires DeleteUnsafe(x) == d && AllUnsafe(u)
    ensures DeleteUnsafe(x + u) == d
  {
    DeleteUnsafeAppend(x, u);
    DeleteUnsafeOnlyUnsafe(u);
    assert d + [] == d;
  }

  /** Safe characters at the end of a text stay. */
  lemma KeepSafeTail(x: string, d: string, y: string)
    requires DeleteUnsafe(x) == d && NoUnsafe(y)
    ensures DeleteUnsafe(x + y) == d + y
  {
    DeleteUnsafeAppend(x, y);
    DeleteUnsafeKeepsSafe(y);
  }

  /** Deleting the unsafe pieces of such a title joins the word pieces. */
  lemma DeleteJoinedPieces(pad: string, a: string, u1: string, b: string, u2: string)
    requires NoUnsafe(pad) && NoUnsafe(a) && NoUnsafe(b)
    requires AllUnsafe(u1) && AllUnsafe(u2)
    ensures DeleteUnsafe(pad + a + u1 + b + u2 + pad) == pad + a + b + pad
  {
    DeleteUnsafeKeepsSafe(pad);
    KeepSafeTail(pad, pad, a);
    DropUnsafeTail(pad + a, pad + a, u1);
    KeepSafeTail(pad + a + u1, pad + a, b);
    DropUnsafeTail(pad + a + u1 + b, pad + a + b, u2);
    KeepSafeTail(pad + a + u1 + b + u2, pad + a + b, pad);
  }

  /** The two word pieces, once joined, can be read as one word between the
      pads. */
  lemma Regroup(pad: string, a: string, b: string)
    ensures pad + a + b + pad == pad + (a + b) + pad
  {
  }


  /** A title made of two word pieces separated by unsafe characters, with
      whitespace around it, sanitises to the two pieces run together. */
  lemma SanitizeJoinedPieces(pad: string, a: string, u1: string, b: string, u2: string)
    requires AllSpace(pad) && IsWord(a + b) && |a + b| <= DefaultMaxLength
    requires NoUnsafe(pad) && NoUnsafe(a) && NoUnsafe(b)
    requires AllUnsafe(u1) && AllUnsafe(u2)
    ensures SanitizeFilename(pad + a + u1 + b + u2 + pad, DefaultMaxLength) == a + b
  {
    var title := pad + a + u1 + b + u2 + pad;
    DeleteJoinedPieces(pad, a, u1, b, u2);
    Regroup(pad, a, b);
    NormalizePaddedWord(pad, a + b, pad);
    assert title != [] by {
      assert |title| >= |a + b| > 0;
    }
    SanitizeIsNormalized(title, DefaultMaxLength, a + b);
  }

  /** Unsafe characters vanish without leaving a blank, and the surrounding
      whitespace is trimmed: the title `  My:/Song*?  ` becomes `MySong`. */
  lemma SanitizeExampleTitle(title: string)
    requires title == "  My:/Song*?  "
    ensures SanitizeFilename(title, DefaultMaxLength) == "MySong"
  {
    var pad, my, song := "  ", "My", "Song";
    var u1, u2 := ":/", "*?";
    assert title == pad + my + u1 + song + u2 + pad;
    assert my + song == "MySong";
    assert IsWord(my + song) by {
      assert forall j :: 0 <= j < |my + song| ==> (my + song)[j] in "MySong";
    }
    SanitizeJoinedPieces(pad, my, u1, song, u2);
  }

  /** An empty title becomes the fallback. */
  lemma SanitizeExampleEmpty()
    ensures SanitizeFilename("", DefaultMaxLength) == Fallback
  {
  }

  /** An unsafe character is deleted, not replaced by a blank. */
  lemma SanitizeExampleDeletes(name: string)
    requires name == "AC/DC"
    ensures SanitizeFilename(name, DefaultMaxLength) == "ACDC"
  {
    var pad, x, y := "", "AC", "DC";
    var u1, u2 := "/", "";
    assert name == pad + x + u1 + y + u2 + pad;
    assert x + y == "ACDC";
    assert IsWord(x + y) by {
      assert forall j :: 0 <= j < |x + y| ==> (x + y)[j] in "ACD";
    }
    SanitizeJoinedPieces(pad, x, u1, y, u2);
  }
}

=== FILE: stream.dfy ===
/** The progress stream of `/progress`: the engine's progress hook turns each
    report into an event, a worker pushes those events onto a queue and
    records its outcome, and the response generator drains the queue until
    the worker is finished and the queue is empty, then emits one final
    `done` or `error` event.

    The two threads are modelled as a state machine. The worker runs a fixed
    program: the hook events, then the outcome, then the finished flag, then
    the `worker finished` marker. Its `finally` block sets the flag before it
    pushes the marker. The consumer's step is one pass of the generator's
    loop. Taking that pass as atomic loses no behaviour: only the consumer
    pops, so a queue seen non-empty stays non-empty until the pop, and a push
    that lands between the loop test and the pop is the same as the worker
    step coming first. A schedule says who moves at each step. */
module Stream {
  import opened Base

  // ---------------------------------------------------------------------
  // The progress hook
  // ---------------------------------------------------------------------

  /** What the engine passes to the hook. Absent numbers are `None`; Python
      treats `None` and `0` alike here. */
  datatype HookReport = HookReport(
    status: Option<string>,
    totalBytes: Option<int>,
    totalEstimate: Option<int>,
    downloaded: Option<int>,
    speed: Option<real>,
    eta: Option<int>,
    filename: Option<string>)

  /** The events pushed onto the queue. */
  datatype Event =
    | Downloading(percent: Option<real>, speed: Option<real>, eta: Option<int>, filename: Option<string>)
    | Converting
    | WorkerFinished

  /** Python's `a or b` on optional numbers, with `None` and `0` both falsy. */
  function OrNum(a: Option<int>, b: int): int {
    if a.Some? && a.value != 0 then a.value else b
  }

  /** `total_bytes or total_bytes_estimate or 0`. */
  function Total(d: HookReport): int {
    OrNum(d.totalBytes, OrNum(d.totalEstimate, 0))
  }

  /** `downloaded / total * 100` when the total is non-zero, else `None`. The
      result is not clamped: a count above the total gives more than 100. */
  function Percent(d: HookReport): (p: Option<real>)
    ensures p.None? <==> (!(d.totalBytes.Some? && d.totalBytes.value != 0)
                          && !(d.totalEstimate.Some? && d.totalEstimate.value != 0))
    ensures p.Some? ==> p.value * (Total(d) as real) == (OrNum(d.downloaded, 0) as real) * 100.0
    ensures p.Some? && 0 <= OrNum(d.downloaded, 0) <= Total(d) ==> 0.0 <= p.value <= 100.0
  {
    var total := Total(d);
    if total != 0 then
      var p := (OrNum(d.downloaded, 0) as real) / (total as real) * 100.0;
      PercentBounds(OrNum(d.downloaded, 0) as real, total as real);
      Some(p)
    else None
  }

  lemma PercentBounds(done: real, total: real)
    requires total != 0.0
    ensures done / total * 100.0 * total == done * 100.0
    ensures 0.0 <= done <= total ==> 0.0 <= done / total * 100.0 <= 100.0
  {
    if 0.0 <= done <= total {
      assert done / total <= 1.0;
    }
  }

  /** The exact byte count wins over the estimate: when both are given the
      percentage is measured against the exact total. */
  lemma PercentPrefersExactTotal(d: HookReport)
    requires d.totalBytes.Some? && d.totalBytes.value != 0
    ensures Percent(d).Some?
    ensures Percent(d).value * (d.totalBytes.value as real) == (OrNum(d.downloaded, 0) as real) * 100.0
  {
  }

  /** A download reported complete is at 100 percent. */
  lemma PercentComplete(d: HookReport)
    requires Total(d) != 0 && d.downloaded == Some(Total(d))
    ensures Percent(d) == Some(100.0)
  {
    PercentBounds(Total(d) as real, Total(d) as real);
  }

  /** The event, if any, the hook pushes for a report: progress while
      downloading, a conversion notice when the download finished, nothing
      for any other status. */
  function HookEvent(d: HookReport): (e: Option<Event>)
    ensures e.Some? <==> d.status == Some("downloading") || d.status == Some("finished")
    ensures d.status == Some("downloading") ==>
      e == Some(Downloading(Percent(d), d.speed, d.eta, d.filename))
    ensures d.status == Some("finished") ==> e == Some(Converting)
    ensures e.Some? ==> e.value != WorkerFinished
  {
    if d.status == Some("downloading") then Some(Downloading(Percent(d), d.speed, d.eta, d.filename))
    else if d.status == Some("finished") then Some(Converting)
    else None
  }

  /** The events the hook pushes for a run of reports, in order. None of
      them is the `worker finished` marker. */
  function HookEvents(reports: seq<HookReport>): (es: seq<Event>)
    ensures |es| <= |reports|
    ensures WorkerFinished !in es
    decreases |reports|
  {
    if reports == [] then []
    else
      var e := HookEvent(reports[|reports| - 1]);
      HookEvents(reports[..|reports| - 1]) + (if e.Some? then [e.value] else [])
  }

  // ---------------------------------------------------------------------
  // The worker and the consumer
  // ---------------------------------------------------------------------

  /** One step of the worker: push an event, record the outcome (the
      deliverable's name or the exception's message), or set the flag. */
  datatype WorkerOp = Push(event: Event) | Report(outcome: Result<string>) | Finish

  /** What the generator yields. */
  datatype Emit =
    | Data(event: Event)
    | KeepAlive
    | Done(token: string, filename: string)
    | Failed(error: string)

  predicate IsFinal(m: Emit) {
    m.Done? || m.Failed?
  }

  /** The final event for an outcome: `done` with the token and the file
      name, or `error` with the message, `unknown error` when it is empty. */
  function FinalEvent(outcome: Result<string>, token: string): (m: Emit)
    ensures IsFinal(m)
    ensures m.Done? <==> outcome.Ok?
    ensures m.Failed? ==> m.error != ""
    ensures outcome.Ok? ==> m == Done(token, outcome.value)
    ensures outcome.Err? && outcome.message != "" ==> m == Failed(outcome.message)
    ensures outcome.Err? && outcome.message == "" ==> m == Failed("unknown error")
  {
    match outcome
    case Ok(name) => Done(token, name)
    case Err(msg) => Failed(if msg != "" then msg else "unknown error")
  }

  /** The worker's program for the hook events it sees and its outcome. */
  function WorkerProgram(hooks: seq<Event>, outcome: Result<string>): (p: seq<WorkerOp>)
    ensures |p| == |hooks| + 3
    ensures forall k :: 0 <= k < |hooks| ==> p[k] == Push(hooks[k])
    ensures p[|hooks|] == Report(outcome)
    ensures p[|hooks| + 1] == Finish
    ensures p[|hooks| + 2] == Push(WorkerFinished)
  {
    seq(|hooks|, k requires 0 <= k < |hooks| => Push(hooks[k]))
      + [Report(outcome), Finish, Push(WorkerFinished)]
  }

  /** The events pushed by a run of worker steps, in order. */
  function Pushed(ops: seq<WorkerOp>): seq<Event>
    decreases |ops|
  {
    if ops == [] then []
    else
      var last := ops[|ops| - 1];
      Pushed(ops[..|ops| - 1]) + (if last.Push? then [last.event] else [])
  }

  /** The events of the `Data` items yielded, in order. */
  function DataOf(out: seq<Emit>): seq<Event>
    decreases |out|
  {
    if out == [] then []
    else
      var last := out[|out| - 1];
      DataOf(out[..|out| - 1]) + (if last.Data? then [last.event] else [])
  }

  predicate NoFinal(out: seq<Emit>) {
    forall i :: 0 <= i < |out| ==> !IsFinal(out[i])
  }

  /** The state shared by the worker and the generator. */
  datatype State = State(
    prog: seq<WorkerOp>,
    token: string,
    pc: nat,
    queue: seq<Event>,
    finished: bool,
    success: bool,
    finalName: string,
    error: string,
    out: seq<Emit>,
    exited: bool)

  function Init(hooks: seq<Event>, outcome: Result<string>, token: string): State {
    State(WorkerProgram(hooks, outcome), token, 0, [], false, false, "", "", [], false)
  }

  /** One step of the worker, if it has any left. */
  function WorkerStep(s: State): (t: State)
    ensures t.out == s.out && t.exited == s.exited && t.token == s.token && t.prog == s.prog
    ensures s.pc < |s.prog| ==> t.pc == s.pc + 1
    ensures s.pc >= |s.prog| ==> t == s
    ensures s.queue <= t.queue && |t.queue| <= |s.queue| + 1
    ensures s.finished ==> t.finished
  {
    if s.pc >= |s.prog| then s
    else
      var s1 := s.(pc := s.pc + 1);
      match s.prog[s.pc]
      case Push(e) => s1.(queue := s.queue + [e])
      case Report(Ok(name)) => s1.(success := true, finalName := name)
      case Report(Err(msg)) => s1.(error := msg)
      case Finish => s1.(finished := true)
  }

  /** One pass of the generator's loop. While the worker is not finished or
      the queue holds events, it yields the oldest event or, on an empty
      queue, a keep-alive. Otherwise it leaves the loop and yields the final
      event. */
  function ConsumerStep(s: State): (t: State)
    ensures s.exited ==> t == s
    ensures !s.exited && s.queue != [] ==>
      t == s.(queue := s.queue[1..], out := s.out + [Data(s.queue[0])])
    ensures !s.exited && s.queue == [] && !s.finished ==> t == s.(out := s.out + [KeepAlive])
    ensures !s.exited && s.queue == [] && s.finished ==>
      t == s.(out := s.out + [Closing(s)], exited := true)
    ensures t.exited && !s.exited ==> s.finished && s.queue == []
  {
    if s.exited then s
    else if !s.finished || s.queue != [] then
      if s.queue != [] then s.(queue := s.queue[1..], out := s.out + [Data(s.queue[0])])
      else s.(out := s.out + [KeepAlive])
    else
      s.(out := s.out + [Closing(s)], exited := true)
  }

  /** The event yielded after the loop, from the recorded outcome. */
  function Closing(s: State): (m: Emit)
    ensures IsFinal(m)
    ensures m.Done? <==> s.success
  {
    FinalEvent(if s.success then Ok(s.finalName) else Err(s.error), s.token)
  }

  /** `true` lets the worker move, `false` the consumer. */
  function Step(s: State, worker: bool): State {
    if worker then WorkerStep(s) else ConsumerStep(s)
  }

  function Run(s: State, schedule: seq<bool>): State
    decreases |schedule|
  {
    if schedule == [] then s else Run(Step(s, schedule[0]), schedule[1..])
  }

  // ---------------------------------------------------------------------
  // What every schedule guarantees
  // ---------------------------------------------------------------------

  /** What holds in every reachable state. The events yielded followed by the
      queue are exactly the events pushed so far, so the queue is first in,
      first out and loses or repeats nothing. The flag and the outcome follow
      the worker's position. Before the exit nothing final is yielded; after
      it, the final event matching the outcome is the last item, every hook
      event has been yielded, and at most the marker is missing. */
  ghost predicate Inv(s: State, hooks: seq<Event>, outcome: Result<string>) {
    && s.prog == WorkerProgram(hooks, outcome)
    && s.pc <= |s.prog|
    && DataOf(s.out) + s.queue == Pushed(s.prog[..s.pc])
    && (s.finished <==> s.pc >= |hooks| + 2)
    && (s.pc <= |hooks| ==> !s.success)
    && (s.pc >= |hooks| + 1 ==>
          && (s.success <==> outcome.Ok?)
          && (outcome.Ok? ==> s.finalName == outcome.value)
          && (outcome.Err? ==> s.error == outcome.message))
    && (!s.exited ==> NoFinal(s.out))
    && (s.exited ==>
          && s.finished
          && |s.out| > 0
          && s.out[|s.out| - 1] == FinalEvent(outcome, s.token)
          && NoFinal(s.out[..|s.out| - 1])
          && (DataOf(s.out) == hooks || DataOf(s.out) == hooks + [WorkerFinished]))
  }

  /** The events pushed by the first `k` worker steps. */
  lemma {:induction false} PushedPrefix(hooks: seq<Event>, outcome: Result<string>, k: nat)
    requires k <= |hooks| + 3
    ensures k <= |hooks| ==> Pushed(WorkerProgram(hooks, outcome)[..k]) == hooks[..k]
    ensures |hooks| <= k <= |hooks| + 2 ==> Pushed(WorkerProgram(hooks, outcome)[..k]) == hooks
    ensures k == |hooks| + 3 ==> Pushed(WorkerProgram(hooks, outcome)[..k]) == hooks + [WorkerFinished]
    decreases k
  {
    var p := WorkerProgram(hooks, outcome);
    if k > 0 {
      PushedPrefix(hooks, outcome, k - 1);
      assert p[..k][..k - 1] == p[..k - 1];
      if k <= |hooks| {
        assert hooks[..k] == hooks[..k - 1] + [hooks[k - 1]];
      } else if k == |hooks| + 3 {
        assert hooks[..|hooks|] == hooks;
      } else {
        assert hooks[..|hooks|] == hooks;
      }
    }
  }

  lemma DataOfAppend(out: seq<Emit>, m: Emit)
    ensures DataOf(out + [m]) == DataOf(out) + (if m.Data? then [m.event] else [])
  {
    assert (out + [m])[..|out|] == out;
  }

  lemma PushedStep(ops: seq<WorkerOp>, k: nat)
    requires k < |ops|
    ensures Pushed(ops[..k + 1]) == Pushed(ops[..k]) + (if ops[k].Push? then [ops[k].event] else [])
  {
    assert ops[..k + 1][..k] == ops[..k];
  }

  lemma InitInv(hooks: seq<Event>, outcome: Result<string>, token: string)
    ensures Inv(Init(hooks, outcome, token), hooks, outcome)
  {
    assert WorkerProgram(hooks, outcome)[..0] == [];
  }

  lemma WorkerStepInv(s: State, hooks: seq<Event>, outcome: Result<string>)
    requires Inv(s, hooks, outcome)
    ensures Inv(WorkerStep(s), hooks, outcome)
  {
    if s.pc < |s.prog| {
      var t := WorkerStep(s);
      PushedStep(s.prog, s.pc);
      if s.pc == |hooks| {
        assert s.prog[s.pc] == Report(outcome);
      } else if s.pc == |hooks| + 1 {
        assert s.prog[s.pc] == Finish;
      }
      if s.exited {
        PushedPrefix(hooks, outcome, s.pc);
        PushedPrefix(hooks, outcome, s.pc + 1);
      }
    }
  }

  lemma ConsumerStepInv(s: State, hooks: seq<Event>, outcome: Result<string>)
    requires Inv(s, hooks, outcome)
    ensures Inv(ConsumerStep(s), hooks, outcome)
  {
    if !s.exited {
      if s.queue != [] {
        PopInv(s, hooks, outcome);
      } else if !s.finished {
        KeepAliveInv(s, hooks, outcome);
      } else {
        ExitInv(s, hooks, outcome);
      }
    }
  }

  lemma NoFinalAppend(out: seq<Emit>, m: Emit)
    requires NoFinal(out) && !IsFinal(m)
    ensures NoFinal(out + [m])
  {
  }

  lemma PopInv(s: State, hooks: seq<Event>, outcome: Result<string>)
    requires Inv(s, hooks, outcome) && !s.exited && s.queue != []
    ensures Inv(ConsumerStep(s), hooks, outcome)
  {
    var t := ConsumerStep(s);
    DataOfAppend(s.out, Data(s.queue[0]));
    assert s.queue == [s.queue[0]] + s.queue[1..];
    assert DataOf(t.out) + t.queue == DataOf(s.out) + s.queue;
    NoFinalAppend(s.out, Data(s.queue[0]));
  }

  lemma KeepAliveInv(s: State, hooks: seq<Event>, outcome: Result<string>)
    requires Inv(s, hooks, outcome) && !s.exited && s.queue == [] && !s.finished
    ensures Inv(ConsumerStep(s), hooks, outcome)
  {
    DataOfAppend(s.out, KeepAlive);
    NoFinalAppend(s.out, KeepAlive);
  }

  lemma ExitInv(s: State, hooks: seq<Event>, outcome: Result<string>)
    requires Inv(s, hooks, outcome) && !s.exited && s.queue == [] && s.finished
    ensures Inv(ConsumerStep(s), hooks, outcome)
  {
    var t := ConsumerStep(s);
    DataOfAppend(s.out, Closing(s));
    assert t.out[..|t.out| - 1] == s.out;
    PushedPrefix(hooks, outcome, s.pc);
    assert Closing(s) == FinalEvent(outcome, s.token);
  }

  /** One pass of the generator's loop conserves the events: the events
      yielded followed by the queue stay the same, the output only grows, by
      at most one item, and the item it gains is final exactly when the pass
      leaves the loop. */
  lemma ConsumerStepConserves(s: State)
    ensures var t := ConsumerStep(s);
      && DataOf(t.out) + t.queue == DataOf(s.out) + s.queue
      && s.out <= t.out && |t.out| <= |s.out| + 1
      && (|t.out| == |s.out| + 1 && IsFinal(t.out[|s.out|]) <==> t.exited && !s.exited)
  {
    if !s.exited {
      if s.queue != [] {
        PopConserves(s);
      } else if !s.finished {
        DataOfAppend(s.out, KeepAlive);
      } else {
        DataOfAppend(s.out, Closing(s));
      }
    }
  }

  /** Popping moves the oldest queued event to the output. */
  lemma PopConserves(s: State)
    requires !s.exited && s.queue != []
    ensures var t := ConsumerStep(s);
      && t.out == s.out + [Data(s.queue[0])] && !t.exited
      && DataOf(t.out) + t.queue == DataOf(s.out) + s.queue
  {
    DataOfAppend(s.out, Data(s.queue[0]));
    assert s.queue == [s.queue[0]] + s.queue[1..];
  }

  lemma {:induction false} RunInv(s: State, schedule: seq<bool>, hooks: seq<Event>, outcome: Result<string>)
    requires Inv(s, hooks, outcome)
    ensures Inv(Run(s, schedule), hooks, outcome)
    decreases |schedule|
  {
    if schedule != [] {
      if schedule[0] {
        WorkerStepInv(s, hooks, outcome);
      } else {
        ConsumerStepInv(s, hooks, outcome);
      }
      RunInv(Step(s, schedule[0]), schedule[1..], hooks, outcome);
    }
  }

  /** Under every schedule: the stream yields the pushed events in order
      without loss or repetition; a final event is yielded only after the
      worker finished; once it is yielded it is the only final event and the
      last item, it is `done` exactly when the download succeeded, and every
      hook event was yielded before it. */
  lemma StreamGuarantees(hooks: seq<Event>, outcome: Result<string>, token: string, schedule: seq<bool>)
    ensures var s := Run(Init(hooks, outcome, token), schedule);
      && DataOf(s.out) <= Pushed(WorkerProgram(hooks, outcome))
      && (!s.exited ==> NoFinal(s.out))
      && (s.exited ==>
            && |s.out| > 0
            && s.out[|s.out| - 1] == FinalEvent(outcome, token)
            && (s.out[|s.out| - 1].Done? <==> outcome.Ok?)
            && NoFinal(s.out[..|s.out| - 1])
            && hooks <= DataOf(s.out))
  {
    InitInv(hooks, outcome, token);
    RunInv(Init(hooks, outcome, token), schedule, hooks, outcome);
    var s := Run(Init(hooks, outcome, token), schedule);
    RunKeepsToken(Init(hooks, outcome, token), schedule);
    PushedPrefix(hooks, outcome, s.pc);
    PushedPrefix(hooks, outcome, |hooks| + 3);
    assert s.prog[..|s.prog|] == s.prog;
    PrefixGrows(hooks, outcome, s.pc);
  }

  /** Fed by the hook, a stream that has ended has yielded exactly the
      hook's events, in order, possibly followed by the marker; the marker
      never appears among the hook's events. */
  lemma ReportsStreamed(reports: seq<HookReport>, outcome: Result<string>, token: string, schedule: seq<bool>)
    ensures var hooks := HookEvents(reports);
      var s := Run(Init(hooks, outcome, token), schedule);
      s.exited ==>
        && (DataOf(s.out) == hooks || DataOf(s.out) == hooks + [WorkerFinished])
        && WorkerFinished !in DataOf(s.out)[..|hooks|]
  {
    var hooks := HookEvents(reports);
    InitInv(hooks, outcome, token);
    RunInv(Init(hooks, outcome, token), schedule, hooks, outcome);
    var s := Run(Init(hooks, outcome, token), schedule);
    if s.exited {
      var d := DataOf(s.out);
      assert d[..|hooks|] == hooks by {
        if d != hooks {
          assert d == hooks + [WorkerFinished];
        }
      }
    }
  }

  lemma PrefixGrows(hooks: seq<Event>, outcome: Result<string>, k: nat)
    requires k <= |hooks| + 3
    ensures Pushed(WorkerProgram(hooks, outcome)[..k]) <= Pushed(WorkerProgram(hooks, outcome))
  {
    var p := WorkerProgram(hooks, outcome);
    PushedPrefix(hooks, outcome, k);
    PushedPrefix(hooks, outcome, |hooks| + 3);
    assert p[..|hooks| + 3] == p;
    if k <= |hooks| {
      assert hooks[..k] <= hooks + [WorkerFinished];
    }
  }

  lemma {:induction false} RunKeepsToken(s: State, schedule: seq<bool>)
    ensures Run(s, schedule).token == s.token
    decreases |schedule|
  {
    if schedule != [] {
      RunKeepsToken(Step(s, schedule[0]), schedule[1..]);
    }
  }

  // ---------------------------------------------------------------------
  // Termination of the stream and the lost marker
  // ---------------------------------------------------------------------

  function Repeat(b: bool, n: nat): (r: seq<bool>)
    ensures |r| == n && forall i :: 0 <= i < n ==> r[i] == b
  {
    seq(n, _ => b)
  }

  /** Once the worker has run its whole program, the consumer leaves the loop
      within one step more than the events still queued. */
  lemma {:induction false} DrainsOnceWorkerDone(s: State, hooks: seq<Event>, outcome: Result<string>)
    requires Inv(s, hooks, outcome) && s.pc == |s.prog|
    ensures Run(s, Repeat(false, |s.queue| + 1)).exited
    decreases |s.queue|
  {
    var sch := Repeat(false, |s.queue| + 1);
    var t := ConsumerStep(s);
    ConsumerStepInv(s, hooks, outcome);
    assert Run(s, sch) == Run(t, sch[1..]);
    if s.exited {
      RunStaysExited(t, sch[1..]);
    } else if s.queue != [] {
      assert sch[1..] == Repeat(false, |t.queue| + 1);
      DrainsOnceWorkerDone(t, hooks, outcome);
    } else {
      RunStaysExited(t, sch[1..]);
    }
  }

  lemma {:induction false} RunStaysExited(s: State, schedule: seq<bool>)
    requires s.exited
    ensures Run(s, schedule).exited
    decreases |schedule|
  {
    if schedule != [] {
      RunStaysExited(Step(s, schedule[0]), schedule[1..]);
    }
  }

  /** The worker's program always runs to its end when the worker is let
      move often enough. */
  lemma {:induction false} WorkerRunsToEnd(s: State)
    requires s.pc <= |s.prog|
    ensures Run(s, Repeat(true, |s.prog| - s.pc)).pc == |s.prog|
    decreases |s.prog| - s.pc
  {
    if s.pc < |s.prog| {
      var sch := Repeat(true, |s.prog| - s.pc);
      assert sch[1..] == Repeat(true, |s.prog| - WorkerStep(s).pc);
      WorkerRunsToEnd(WorkerStep(s));
    }
  }

  /** When the consumer drains the queue between the worker's setting the
      flag and its pushing the marker, the stream ends without the
      `worker finished` marker, which stays queued and is never yielded. */
  lemma MarkerCanBeLost(token: string, name: string)
    ensures var s := Run(Init([], Ok(name), token), [true, true, false, true]);
      && s.exited
      && s.out == [Done(token, name)]
      && s.queue == [WorkerFinished]
  {
    var s0 := Init([], Ok(name), token);
    assert s0.prog == [Report(Ok(name)), Finish, Push(WorkerFinished)];
    var s1 := Step(s0, true);
    var s2 := Step(s1, true);
    var s3 := Step(s2, false);
    var s4 := Step(s3, true);
    assert s3.out == [Done(token, name)] && s3.exited;
    assert s4.queue == [WorkerFinished];
    assert Run(s0, [true, true, false, true]) == Run(s1, [true, false, true]);
    assert Run(s1, [true, false, true]) == Run(s2, [false, true]);
    assert Run(s2, [false, true]) == Run(s3, [true]);
  }
}

=== FILE: text.dfy ===
/** Character classes and substring search used by the name sanitiser,
    the URL check and the output-file matcher. */
module Text {

  /** The characters CPython treats as whitespace in `str.isspace()`, in
      `str.strip()` and in the `\s` class of a `str` regular expression. */
  predicate IsSpace(c: char) {
    var n := c as int;
    || n == 0x20
    || 0x09 <= n <= 0x0D
    || 0x1C <= n <= 0x1F
    || n == 0x85 || n == 0xA0 || n == 0x1680
    || 0x2000 <= n <= 0x200A
    || n == 0x2028 || n == 0x2029 || n == 0x202F || n == 0x205F || n == 0x3000
  }

  /** Lower-casing of one character, restricted to ASCII letters. */
  function LowerChar(c: char): char {
    if 'A' <= c <= 'Z' then (c as int + 32) as char else c
  }

  /** `s.lower()`, character by character. */
  function Lower(s: string): (r: string)
    ensures |r| == |s|
    ensures forall i :: 0 <= i < |s| ==> r[i] == LowerChar(s[i])
    ensures forall i :: 0 <= i < |s| && 'A' <= s[i] <= 'Z' ==> r[i] as int == s[i] as int + 32
    ensures forall i :: 0 <= i < |s| && !('A' <= s[i] <= 'Z') ==> r[i] == s[i]
    ensures forall i :: 0 <= i < |r| ==> !('A' <= r[i] <= 'Z')
  {
    seq(|s|, i requires 0 <= i < |s| => LowerChar(s[i]))
  }

  lemma LowerAppend(a: string, b: string)
    ensures Lower(a + b) == Lower(a) + Lower(b)
  {
  }

  /** The text `p` sits in `s` starting at index `i`. */
  predicate OccursAt(s: string, p: string, i: int) {
    0 <= i && i + |p| <= |s| && s[i..i + |p|] == p
  }

  /** Python's `p in s` on strings, as a left-to-right scan. */
  predicate Contains(s: string, p: string)
    decreases |s|
  {
    p <= s || (s != [] && Contains(s[1..], p))
  }

  /** The scan finds `p` exactly when `p` occurs at some position of `s`. */
  lemma {:induction false} ContainsIffOccurs(s: string, p: string)
    ensures Contains(s, p) <==> exists i :: OccursAt(s, p, i)
    decreases |s|
  {
    if p <= s {
      assert OccursAt(s, p, 0);
    } else if s == [] {
      assert forall i :: !OccursAt(s, p, i);
    } else {
      ContainsIffOccurs(s[1..], p);
      if Contains(s[1..], p) {
        var i :| OccursAt(s[1..], p, i);
        assert s[1..][i..i + |p|] == s[i + 1..i + 1 + |p|];
        assert OccursAt(s, p, i + 1);
      }
      forall i | OccursAt(s, p, i)
        ensures Contains(s[1..], p)
      {
        assert s[1..][i - 1..i - 1 + |p|] == s[i..i + |p|];
        assert OccursAt(s[1..], p, i - 1);
      }
    }
  }

  /** A text found in `s` is still found once anything is put around `s`. */
  lemma ContainsWithin(a: string, s: string, b: string, p: string)
    requires Contains(s, p)
    ensures Contains(a + s + b, p)
  {
    ContainsIffOccurs(s, p);
    var i :| OccursAt(s, p, i);
    assert (a + s + b)[|a| + i..|a| + i + |p|] == s[i..i + |p|];
    assert OccursAt(a + s + b, p, |a| + i);
    ContainsIffOccurs(a + s + b, p);
  }

  /** Python's `s.endswith(suffix)`. */
  predicate EndsWith(s: string, suffix: string) {
    |suffix| <= |s| && s[|s| - |suffix|..] == suffix
  }
}

=== FILE: urls.dfy ===
/** `is_youtube_url`: the URL filter shared by both endpoints. It lower-cases
    the URL and looks for one of three fragments anywhere in it. */
module Urls {
  import opened Base
  import opened Text

  const WatchPath: string := "youtube.com/watch"
  const PlaylistPath: string := "youtube.com/playlist"
  const ShortHost: string := "youtu.be/"

  /** `is_youtube_url(url)`: false for a missing or empty URL, otherwise
      whether its lower-cased text contains one of the three fragments. */
  predicate IsYoutubeUrl(url: Option<string>) {
    if !Truthy(url) then false
    else
      var l := Lower(url.value);
      Contains(l, WatchPath) || Contains(l, PlaylistPath) || Contains(l, ShortHost)
  }

  /** One of the recognised fragments starts at position `i` of `l`. */
  predicate FragmentAt(l: string, i: int) {
    OccursAt(l, WatchPath, i) || OccursAt(l, PlaylistPath, i) || OccursAt(l, ShortHost, i)
  }

  /** The check accepts a URL exactly when a recognised fragment occurs at some
      position of its lower-cased text; nothing else about the URL matters. */
  lemma IsYoutubeUrlIff(url: Option<string>)
    ensures IsYoutubeUrl(url) <==> url.Some? && exists i :: FragmentAt(Lower(url.value), i)
  {
    if url.Some? {
      var l := Lower(url.value);
      ContainsIffOccurs(l, WatchPath);
      ContainsIffOccurs(l, PlaylistPath);
      ContainsIffOccurs(l, ShortHost);
      if exists i :: FragmentAt(l, i) {
        var i :| FragmentAt(l, i);
        assert |l| > 0;
        if OccursAt(l, WatchPath, i) {
          assert Contains(l, WatchPath);
        } else if OccursAt(l, PlaylistPath, i) {
          assert Contains(l, PlaylistPath);
        } else {
          assert Contains(l, ShortHost);
        }
      }
      if IsYoutubeUrl(url) {
        if Contains(l, WatchPath) {
          var i :| OccursAt(l, WatchPath, i);
          assert FragmentAt(l, i);
        } else if Contains(l, PlaylistPath) {
          var i :| OccursAt(l, PlaylistPath, i);
          assert FragmentAt(l, i);
        } else {
          var i :| OccursAt(l, ShortHost, i);
          assert FragmentAt(l, i);
        }
      }
    }
  }

  /** Missing and empty URLs are refused. */
  lemma NoUrlRefused()
    ensures !IsYoutubeUrl(None) && !IsYoutubeUrl(Some(""))
  {
  }

  /** Upper and lower case are not distinguished. */
  lemma IsYoutubeUrlIgnoresCase(u: string)
    ensures IsYoutubeUrl(Some(u)) <==> IsYoutubeUrl(Some(Lower(u)))
  {
    assert Lower(Lower(u)) == Lower(u);
  }

  /** An accepted URL stays accepted whatever text surrounds it, so the check
      does not look at the host or the position of the fragment. */
  lemma IsYoutubeUrlAnywhere(a: string, u: string, b: string)
    requires IsYoutubeUrl(Some(u))
    ensures IsYoutubeUrl(Some(a + u + b))
  {
    LowerAppend(a + u, b);
    LowerAppend(a, u);
    var l := Lower(u);
    if Contains(l, WatchPath) {
      ContainsWithin(Lower(a), l, Lower(b), WatchPath);
    } else if Contains(l, PlaylistPath) {
      ContainsWithin(Lower(a), l, Lower(b), PlaylistPath);
    } else {
      ContainsWithin(Lower(a), l, Lower(b), ShortHost);
    }
  }

  /** A URL on a foreign host passes as soon as a fragment appears in its query. */
  lemma ForeignHostAccepted(u: string)
    requires u == "https://example.org/?next=youtu.be/x"
    ensures IsYoutubeUrl(Some(u))
  {
    var pre, post := "https://example.org/?next=", "x";
    assert u == pre + ShortHost + post;
    assert ShortHost <= ShortHost;
    assert Lower(ShortHost) == ShortHost;
    assert IsYoutubeUrl(Some(ShortHost));
    IsYoutubeUrlAnywhere(pre, ShortHost, post);
  }
}

=== FILE: validation.dfy ===
/** The request prologue shared, line for line, by `/progress` and `/fetch`:
    the URL must be present, then the API key is checked when one is
    configured, and only then is the URL's shape checked. */
module Validation {
  import opened Base
  import Urls

  const MissingUrl: string := "missing url parameter"
  const MissingKey: string := "missing X-API-Key header"
  const InvalidKey: string := "invalid api key"
  const UnsupportedUrl: string := "unsupported url domain"

  /** Either the request may go on, or it is answered with a status and message. */
  datatype Verdict = Proceed | Refuse(status: int, error: string)

  /** The key check passes when no key is configured, or when the header carries
      exactly the configured key. */
  predicate KeyAccepted(apiKey: Option<string>, header: Option<string>) {
    !Truthy(apiKey) || (header.Some? && header.value == apiKey.value)
  }

  /** The prologue of `progress_sse` and of `fetch`. `url` is the query
      parameter, `apiKey` the configured key and `header` the `X-API-Key`
      request header; `None` stands for an absent value. */
  function CheckRequest(url: Option<string>, apiKey: Option<string>, header: Option<string>): (v: Verdict)
    ensures v.Proceed? <==> Truthy(url) && KeyAccepted(apiKey, header) && Urls.IsYoutubeUrl(url)
    ensures !Truthy(url) ==> v == Refuse(400, MissingUrl)
    ensures Truthy(url) && Truthy(apiKey) && !Truthy(header) ==> v == Refuse(403, MissingKey)
    ensures Truthy(url) && Truthy(apiKey) && Truthy(header) && header.value != apiKey.value ==>
      v == Refuse(403, InvalidKey)
    ensures Truthy(url) && KeyAccepted(apiKey, header) && !Urls.IsYoutubeUrl(url) ==>
      v == Refuse(400, UnsupportedUrl)
    ensures v.Refuse? && v.status == 403 ==> Truthy(apiKey)
    ensures v.Refuse? ==> v.status == 400 || v.status == 403
  {
    if !Truthy(url) then Refuse(400, MissingUrl)
    else if Truthy(apiKey) && !Truthy(header) then Refuse(403, MissingKey)
    else if Truthy(apiKey) && header.value != apiKey.value then Refuse(403, InvalidKey)
    else if !Urls.IsYoutubeUrl(url) then Refuse(400, UnsupportedUrl)
    else Proceed
  }

  /** A missing URL is reported before any key problem, whatever the key. */
  lemma MissingUrlFirst(apiKey: Option<string>, header: Option<string>)
    ensures CheckRequest(None, apiKey, header) == Refuse(400, MissingUrl)
    ensures CheckRequest(Some(""), apiKey, header) == Refuse(400, MissingUrl)
  {
  }

  /** A key problem is reported before an unsupported URL: with a key configured
      and a wrong header, even a foreign URL gets 403, not 400. */
  lemma KeyBeforeDomain(url: string, apiKey: string, header: Option<string>)
    requires url != "" && apiKey != ""
    requires header != Some(apiKey)
    ensures CheckRequest(Some(url), Some(apiKey), header).status == 403
  {
  }

  /** Without a configured key, the header plays no part in the verdict. */
  lemma HeaderIgnoredWithoutKey(url: Option<string>, h1: Option<string>, h2: Option<string>)
    ensures CheckRequest(url, None, h1) == CheckRequest(url, None, h2)
    ensures CheckRequest(url, Some(""), h1) == CheckRequest(url, None, h2)
  {
  }
}
